=== FILE: README.md ===
# Scry command resolution, modelled in Dafny

Scry is a keyboard launcher: the user types `<prefix> <key>` (`web youtube`,
`sys lock`, `search dafny`), picks from a fuzzy-filtered list, and a handler
registered under the prefix runs the key. This project models the
command-resolution core of that launcher as pure functions over immutable
state and proves what it promises:

- `Text`: the .NET string operations the code relies on. These are
  `char.IsWhiteSpace`, `Trim`, invariant lower-casing, ordinal
  case-insensitive comparison, and the three different splits the code uses:
  `Split(' ', 2)`, `Split(' ')`, and `Split(' ', 2, RemoveEmptyEntries)`.
- `Subsequence` and `Fuzzy`: the greedy two-pointer matcher `IsFuzzyMatch`.
  It is proved exact against a reference definition of "is an in-order
  subsequence" after lower-casing.
- `Clipboard`, `SystemCommands`, `Web`, `Exe` and `Search`: the handlers with
  their own validation logic. `Handlers` gathers them into one `Handler`
  datatype, with the `ICommandHandler` members `Prefix`, `Description`,
  `IsEntryless`, `Options` and `Execute`.
- `Executor`: `ProcessExecutor`, a registry keyed by prefix ignoring case. It
  lists prefixes, hands out options, and parses and dispatches whole commands.
- `ProcessLauncher`: the older stand-alone `run <key>` parser.
- `ViewModel`: `ScryWindowViewModel`, a state machine with a prefix phase and
  an argument phase. Every assignment to `CommandText` re-runs the
  text-change handling, except the two that the source makes under
  `_suppressChange`.
- `App`: the view model driven by window events beside the clipboard poller.
  The invariant `App.Invariant` holds across any run of events.

Foreign effects are parameters of `Handlers.Platform`:

- `Process.Start`, as a function from the start request to "started" or
  "threw with a message";
- `Uri.EscapeDataString`;
- the Windows platform check;
- the executables found on `PATH`;
- the options and execution of handlers whose code is not part of this model.

`SelectedItem` is bound by the list control. The model assumes it is the
item at `SelectedIndex` when that index is inside `Items`, and none
otherwise.

Some behaviour of the code worth knowing:

- `SelectedIndex` is not clamped to the list. The text-change handling
  replaces `Items` and then only calls `MoveDown`, so an index can be left
  beyond a shorter list. In that case there is no selected item; see the
  contracts of `ViewModel.MoveDown` and `ViewModel.SelectedItem`.
- The greedy matcher has no false negatives: `Fuzzy.IsFuzzyMatch` is proved
  equivalent to the subsequence test.
- The ready flag and the executor read the argument differently. The flag
  trims the argument (`ViewModel.ArgumentPhaseTextChange`), but the executor
  keeps trailing spaces in the key (`Executor.ExecuteDispatches`,
  `Text.SplitPrefixKeyOfCommand`). So a text such as `sys lock ` can be
  marked ready and still be refused by the handler.
- The view-model properties are stated for the constructor that receives an
  executor (ViewModels/ScryWindowViewModel.cs:57-69). App.axaml.cs:29 and
  Views/ScryWindow.axaml.cs:13 construct the view model with the
  parameterless designer constructor, which is not modelled.

## Model

| member | source | states |
|---|---|---|
| `Text.Trim` | ViewModels/ScryWindowViewModel.cs:260 | the result is a slice of the text with only white space before and after it; it is empty exactly when the text is blank (all `char.IsWhiteSpace`), and otherwise neither starts nor ends with white space |
| `Text.TrimKeepsBlankness` | ViewModels/ScryWindowViewModel.cs:260-264 | a trimmed text is blank exactly when the text was, so testing the trimmed argument for blankness tests the argument |
| `Text.Lower` | ViewModels/ScryWindowViewModel.cs:413-414 | invariant lower-casing keeps the length and maps each character on its own |
| `Text.SplitFirst` | ViewModels/ScryWindowViewModel.cs:79 | `Split(' ', 2)` yields one part exactly when there is no space; otherwise the text is the first part, a space and the second part, and the first part holds no space |
| `Text.SplitFirstAfterWord` | ViewModels/ScryWindowViewModel.cs:79 | a space-free word, a space and any rest split into exactly that word and that rest |
| `Text.ArgumentAfterWord` | ViewModels/ScryWindowViewModel.cs:357-359 | `Split(' ')` of a prefix, a space and a value yields at least two pieces, and the pieces after the first join back to the value |
| `Text.SplitAll` | ViewModels/ScryWindowViewModel.cs:359 | `Split(' ')` yields space-free pieces that join back, with single spaces, to the original text |
| `Text.JoinAfterFirstPiece` | ViewModels/ScryWindowViewModel.cs:260 | joining the pieces of `Split(' ')` after the first gives exactly the second part of `Split(' ', 2)`, so both splits yield the same argument |
| `Text.SplitPrefixKey` | Services/ProcessExecutor.cs:48 | `Split(' ', 2, RemoveEmptyEntries)` yields at most two non-empty parts; the first holds no space and the second does not start with one |
| `Text.SplitPrefixKeyOfCommand` | Services/ProcessExecutor.cs:48-53 | leading spaces, a word, one or more spaces and a key that does not start with a space split into exactly that word and that key (trailing spaces stay in the key) |
| `Text.SplitPrefixKeyOfWord` | Services/ProcessExecutor.cs:48-50 | a single word with any spaces around it splits into that word alone, so the key is missing |
| `Subsequence.PrefixIsSubsequence` | ViewModels/ScryWindowViewModel.cs:408-410 | a prefix is a subsequence, so the prefix short-cut never contradicts the scan |
| `Subsequence.GreedyStep` | ViewModels/ScryWindowViewModel.cs:419-425 | when the heads agree, consuming both is exact: the rest is a subsequence of the rest exactly when the whole is of the whole |
| `Fuzzy.GreedyScan` | ViewModels/ScryWindowViewModel.cs:416-427 | the two-pointer scan consumes the whole query exactly when the remaining query is a subsequence of the remaining target |
| `Fuzzy.IsFuzzyMatch` | ViewModels/ScryWindowViewModel.cs:403-428 | an empty query matches everything; a non-empty query never matches an empty target; otherwise the match holds exactly when the lower-cased query is an in-order subsequence of the lower-cased target |
| `Fuzzy.FuzzyMatch` | ViewModels/ScryWindowViewModel.cs:403-428 | the source's loop decides exactly the lower-cased subsequence relation and agrees with `IsFuzzyMatch` |
| `Fuzzy.FilterMatches` | ViewModels/ScryWindowViewModel.cs:150-152 | the filtered list is a subsequence of the input (order kept), holds only matching entries, and keeps every copy of every matching entry (each entry occurs as often as in the input if it matches, otherwise not at all) |
| `Fuzzy.FilterEmptyQuery` | ViewModels/ScryWindowViewModel.cs:405 | filtering with the empty query keeps every entry |
| `Fuzzy.FuzzyExamples` | ViewModels/ScryWindowViewModel.cs:403-428 | "ccl" matches "Calculator", "tc" does not match "cat", and "CLIP" matches "clipboard" |
| `Clipboard.Remember` | Services/ClipboardHandler.cs:38-43 | a text already in the history leaves it unchanged (not promoted); a new text goes to the front; only the oldest entry is evicted, and only beyond 50; at most 50 entries and no duplicates are preserved |
| `Clipboard.Poll` | Services/ClipboardHandler.cs:33-44 | a null or blank read, or a read equal to the last seen text, changes nothing; any other read becomes the last seen text whether or not it is inserted; the history invariant is preserved |
| `Clipboard.Options` | Services/ClipboardHandler.cs:50-51 | the options are the history in order, without descriptions |
| `Clipboard.Execute` | Services/ClipboardHandler.cs:53-61 | succeeds exactly when the key is in the history (exact comparison), and otherwise fails with "Unknown clipboard entry: " and the key |
| `Clipboard.DuplicateIsDropped` | Services/ClipboardHandler.cs:34-43 | copying "a", "b", then "a" again leaves the history ["b", "a"] |
| `SystemCommands.Lookup` | Services/SystemHandler.cs:20-76 | the raw command resolves exactly when its lower-cased form is one of the listed commands, and then to the action listed under that key |
| `SystemCommands.KeysAreLowerCommands` | Services/SystemHandler.cs:20-47 | the table's keys are the listed commands in the same order, all already lower case |
| `SystemCommands.GetDescription` | Services/SystemHandler.cs:52-65 | a command gets the generic "system command" description exactly when it is not one of the listed commands (compared exactly) |
| `SystemCommands.Run` | Services/SystemHandler.cs:91-188 | off Windows an action returns "not supported on this platform" for its feature; on Windows it returns success exactly when every start succeeds, and otherwise raises the first start's exception |
| `SystemCommands.LookupIn` | Services/SystemHandler.cs:20-31 | a command resolves exactly when a table key equals it ignoring case, and then to that key's action |
| `SystemCommands.Options` | Services/SystemHandler.cs:34-50 | the options are the nine primary commands in their listed order |
| `SystemCommands.OptionsAreCommands` | Services/SystemHandler.cs:20-65 | every listed option is a key of the table, and each has its own description, never the "system command" fallback |
| `SystemCommands.StartAll` | Services/SystemHandler.cs:102-112 | the starts of an action succeed exactly when each succeeds; a failure is the exception of the first start that throws, every earlier start having succeeded |
| `SystemCommands.Execute` | Services/SystemHandler.cs:67-89 | a blank command fails with "System command cannot be empty"; an unknown one fails with "Unknown system command: " and the raw command; off Windows the action fails as not supported on this platform; on Windows it succeeds exactly when all its starts do, and an exception becomes "Failed to execute system command: " and the message of the first start that threw |
| `SystemCommands.LookupUsesRawCommand` | Services/SystemHandler.cs:72-76 | the raw command is looked up: "LOCK" resolves to the lock action, " lock" resolves to nothing |
| `Web.SiteUrl` | Services/WebHandler.cs:12-16 | a site name resolves exactly when it equals a key (case-sensitive), and then to that key's URL |
| `Web.Options` | Services/WebHandler.cs:18 | the options are exactly the map keys, in order, without descriptions |
| `Web.Execute` | Services/WebHandler.cs:20-34 | an unknown site fails with "Unknown site: " and the key before anything starts; a known site opens exactly its URL, and an exception becomes a failure with its message |
| `Web.SiteNamesAreCaseSensitive` | Services/WebHandler.cs:12-23 | "YouTube" is refused as an unknown site |
| `Exe.DistinctAfter` | Services/ExeHandler.cs:24 | case-insensitive de-duplication yields a subsequence of the names with no two equal ignoring case, none equal to an already-seen name, and every name either seen or kept in some spelling |
| `Exe.DistinctAfterKeepsFirst` | Services/ExeHandler.cs:24 | the spelling kept is the first met: a name that neither an already-seen name nor an earlier name equals ignoring case is in the result |
| `Exe.DistinctAfterInScanOrder` | Services/ExeHandler.cs:24 | the kept names come in the order of their first spellings in the scan, so the result is not reordered |
| `Exe.Executables` | Services/ExeHandler.cs:14-26 | the executable list has no case-insensitive duplicates, drops no name, keeps each name in the spelling first found, and keeps the names in the order of their first spellings |
| `Exe.ExecutablesKeepMembership` | Services/ExeHandler.cs:24-32 | a key is in the de-duplicated list ignoring case exactly when it is among the names found |
| `Exe.Options` | Services/ExeHandler.cs:28 | the options are the executable list, without descriptions |
| `Exe.Execute` | Services/ExeHandler.cs:30-44 | a key not in the list ignoring case fails with "Unknown executable: " and the key; an accepted key starts exactly the key followed by ".exe", and an exception becomes a failure with its message |
| `Search.Execute` | Services/SearchHandler.cs:20-38 | a blank query fails with "Search query cannot be empty"; any other query opens the search URL followed by the escaped query, and an exception becomes "Failed to open browser: " and its message |
| `Handlers.ExecuteValidatesKey` | Services/ICommandHandler.cs:23-32 | a built-in handler that succeeds was given a key from its options ignoring case, and the clipboard and web handlers a key spelled exactly as an option; the entryless search handler was given a non-blank key |
| `Handlers.ClipboardValidatesKey` | Services/ClipboardHandler.cs:50-61 | a clipboard key that executes is exactly one of the listed history entries |
| `Handlers.WebValidatesKey` | Services/WebHandler.cs:18-34 | a site key that opens a page is exactly one of the listed site names |
| `Handlers.ExeValidatesKey` | Services/ExeHandler.cs:28-44 | an executable key that starts a process equals one of the listed executables ignoring case, although the list is deduplicated |
| `Handlers.SearchIsTheOnlyEntrylessHandler` | Services/SearchHandler.cs:15-18 | among the handlers of the model only the search handler is entryless, and it offers no options |
| `Handlers.SystemListsEveryAction` | Services/SystemHandler.cs:20-49 | every key the system table accepts is, ignoring case, one of its listed options |
| `ProcessLauncher.HandleRun` | Services/ProcessLauncher.cs:40-60 | only the key "notepad" has a path, and it starts "notepad.exe" through the shell; every other key fails with "Path not found"; an exception becomes a failure with its message |
| `ProcessLauncher.Launch` | Services/ProcessLauncher.cs:16-38 | a blank command fails with "Empty command"; a command that does not split into a prefix and a key fails with "Invalid part length"; a prefix other than "run" (ignoring case) fails with "Invalid prefix"; otherwise the lower-cased key goes to `HandleRun`, so the throwing default branch is unreachable |
| `ProcessLauncher.LaunchOfCommand` | Services/ProcessLauncher.cs:21-34 | for a word, a space and a key, only the word decides (ignoring case), and the key is lower-cased before lookup |
| `ProcessLauncher.LaunchIgnoresKeyCase` | Services/ProcessLauncher.cs:25-26 | "run NotePad" is launched as "notepad" |
| `ProcessLauncher.LaunchKeepsTrailingSpace` | Services/ProcessLauncher.cs:21-26 | "run notepad " keeps the trailing space in its key and finds no path |
| `Executor.Build` | Services/ProcessExecutor.cs:26 | the dictionary is built exactly when no two prefixes are equal ignoring case |
| `Executor.StandardHandlersBuild` | Services/ProcessExecutor.cs:14-26 | the seven standard handlers build a registry whenever the run handler's prefix is a word distinct from the other six |
| `Executor.TryGetHandler` | Services/ProcessExecutor.cs:33-34 | a handler is found exactly when some registered prefix equals the text ignoring case, and then it is that prefix's handler |
| `Executor.TryGetHandlerIgnoresCase` | Services/ProcessExecutor.cs:26 | looking up a lower-cased prefix finds the same handler as looking up the prefix itself |
| `Executor.ListEntries` | Services/ProcessExecutor.cs:29-31 | one entry per registered handler, in registration order, with the prefix as value and the handler's description |
| `Executor.ListedPrefixesResolve` | Services/ProcessExecutor.cs:26-34 | every listed prefix looks up its own handler |
| `Executor.OwnOptions` | Services/ProcessExecutor.cs:36-41 | a registered handler's own prefix hands out exactly that handler's options |
| `Executor.GetOptions` | Services/ProcessExecutor.cs:36-41 | an unknown prefix has no options; a registered one (ignoring case) has exactly its handler's options |
| `Executor.Execute` | Services/ProcessExecutor.cs:43-59 | a blank command fails with "Empty command"; one without both a prefix and a key fails with "Must be `<prefix> <key>`"; an unregistered prefix fails with "Unknown prefix: " and the prefix; otherwise the result is the handler's outcome on the key |
| `Executor.ExecuteDispatches` | Services/ProcessExecutor.cs:48-58 | a command made of a registered prefix in any case, spaces and a key is exactly that handler's execution of the key |
| `Executor.ExecuteUnknownPrefix` | Services/ProcessExecutor.cs:52-56 | a command whose first word is not registered fails naming that word |
| `Executor.ExecuteWithoutKey` | Services/ProcessExecutor.cs:48-50 | a lone word, with or without spaces around it ("run", "run "), fails as malformed |
| `ViewModel.ActivePhase` | ViewModels/ScryWindowViewModel.cs:40 | the phase is "action" or "argument", and "argument" exactly when a handler is chosen |
| `ViewModel.KeptHandler` | ViewModels/ScryWindowViewModel.cs:127-134 | a handler survives exactly when there is one and its prefix and a space begin the text ignoring case; otherwise it is dropped |
| `ViewModel.SetCurrentHandler` | ViewModels/ScryWindowViewModel.cs:192-207 | the handler is chosen, the text becomes its lower-cased prefix and a space (which keeps that handler), the phase becomes "argument", the handler's options are listed and the caret moves once; ready flag, error and cancellations are untouched |
| `ViewModel.HandleArgumentFiltering` | ViewModels/ScryWindowViewModel.cs:139-155 | only the list and selection change; the list becomes empty for an entryless handler (selection kept) and otherwise the handler's options that fuzzy-match the part after the prefix |
| `ViewModel.HandlePrefixFiltering` | ViewModels/ScryWindowViewModel.cs:160-188 | a single part naming a registered prefix chooses that handler, keeps it for the new text, lists its options and moves the caret; otherwise only the list changes, to the prefixes that fuzzy-match the first part |
| `ViewModel.CompleteArgument` | ViewModels/ScryWindowViewModel.cs:239-245 | the text becomes the prefix, a space and the value, the handler is kept, the list is emptied, the command is marked ready and the caret moves once, without any cancellation |
| `ViewModel.Cancel` | ViewModels/ScryWindowViewModel.cs:396-397 | one cancellation request is raised and nothing else changes |
| `ViewModel.Initial` | ViewModels/ScryWindowViewModel.cs:57-69 | the constructor starts with no handler, every prefix listed, and the consistency invariant holding |
| `ViewModel.SelectedItem` | ViewModels/ScryWindowViewModel.cs:24-28 | an item is selected exactly when the index is inside the list, and it is the item at that index |
| `ViewModel.MoveUp` | ViewModels/ScryWindowViewModel.cs:287-291 | the index decreases by one only when it is above 0; otherwise nothing changes |
| `ViewModel.MoveDown` | ViewModels/ScryWindowViewModel.cs:293-297 | the index increases by one only when it is below the last item; otherwise nothing changes |
| `ViewModel.MovesUndoEachOther` | ViewModels/ScryWindowViewModel.cs:287-297 | down then up (from any item but the last) and up then down (from any item but the first) return to the same state |
| `ViewModel.MovesKeepSelection` | ViewModels/ScryWindowViewModel.cs:287-297 | from no selection or an item in the list, the moves keep a selected item selected, and moving down in a non-empty list always selects an item |
| `ViewModel.TextChanged` | ViewModels/ScryWindowViewModel.cs:71-86 | a text change clears the error, requests no cancellation, leaves a consistent state, and keeps handler, text and caret when the prefix still begins the text |
| `ViewModel.ArgumentPhaseTextChange` | ViewModels/ScryWindowViewModel.cs:127-155 | while the handler's prefix and a space still begin the text, the handler and text stay; the ready flag is the handler's acceptance of the argument after the prefix; the list is empty for an entryless handler and otherwise exactly the handler's options that fuzzy-match the argument, in order |
| `ViewModel.PrefixPhaseTextChange` | ViewModels/ScryWindowViewModel.cs:160-207 | in the prefix phase, a space-free text naming a registered prefix chooses that handler, becomes the lower-cased prefix and a space (without re-running the handling), lists its options and moves the caret; any other text stays as typed with no handler and lists the prefixes that fuzzy-match its first word; nothing is ready |
| `ViewModel.SelectionCheckMatchesAccepts` | ViewModels/ScryWindowViewModel.cs:255-270 | on a clicked argument, `CheckIfExecutable` is exactly the handler's acceptance of the entry's value |
| `ViewModel.CheckIfExecutable` | ViewModels/ScryWindowViewModel.cs:255-270 | true only with a handler and at least two parts; for a registered handler it is exactly the handler's acceptance of the later parts joined by spaces: non-blank for an entryless handler, otherwise an option equal to the trimmed value ignoring case |
| `ViewModel.SetCommandText` | ViewModels/ScryWindowViewModel.cs:21-22 | assigning the text that is already there changes nothing; any other text runs the text-change handling; a text that keeps the prefix keeps the handler and caret |
| `ViewModel.Execute` | ViewModels/ScryWindowViewModel.cs:272-285 | on failure only the error becomes "Could not execute: " and the message; on success the text is cleared (back to the prefix phase with every prefix listed), the error and ready flag are cleared and one cancellation is requested |
| `ViewModel.Enter` | ViewModels/ScryWindowViewModel.cs:88-114 | a ready command, or a non-blank text under an entryless handler, is executed; with nothing ready and nothing selected only the error "Invalid command" is set; consistency is preserved |
| `ViewModel.CompletePrefixSelection` | ViewModels/ScryWindowViewModel.cs:212-223 | a selected entry that names no prefix is executed: on success the text and handler are cleared and cancellation is requested, on failure the text becomes the entry and the failure message is shown; either way the view model stays consistent |
| `ViewModel.CompleteAndExecuteArgument` | ViewModels/ScryWindowViewModel.cs:229-234 | prefix, space and selected value are executed: on success the text and handler are cleared and cancellation is requested, on failure that text stays with the handler and the failure message is shown; either way the view model stays consistent |
| `ViewModel.EnterOnSelection` | ViewModels/ScryWindowViewModel.cs:212-234 | when nothing is ready and the handler is not entryless: Enter on a selected prefix chooses it as typing it would; Enter on any other selected entry in the prefix phase, or on a selected argument (prefix, space and value), executes that text, clearing text and handler on success and keeping them with the failure message on failure |
| `ViewModel.Tab` | ViewModels/ScryWindowViewModel.cs:116-122 | with no selection nothing changes; a selected prefix is chosen as typing it would; a selected argument completes the text to prefix, space and value, empties the list and marks the command ready without executing |
| `ViewModel.HandlePrefixSelection` | ViewModels/ScryWindowViewModel.cs:322-347 | clicking a registered prefix chooses it with its own case, lists its options and selects the first (or none); clicking anything else executes it as a whole command, clearing text and handler on success and leaving the entry as the text with the failure message on failure |
| `ViewModel.HandleArgumentSelection` | ViewModels/ScryWindowViewModel.cs:353-371 | clicking an argument sets the text to prefix, space and value; that text is executed exactly when the handler accepts the value, clearing text and handler on success and keeping them with the failure message on failure; a value not accepted leaves that text and the handler, moves the caret and requests no cancellation |
| `ViewModel.ItemClick` | ViewModels/ScryWindowViewModel.cs:299-316 | a click on no entry changes nothing, and every click preserves consistency |
| `ViewModel.Reset` | ViewModels/ScryWindowViewModel.cs:387-394 | reset leaves empty text, no handler, no error, nothing ready and every prefix listed |
| `App.Start` | ViewModels/ScryWindowViewModel.cs:57-69 | the launcher starts in the prefix phase with every prefix listed, an empty history, and the invariant holding |
| `App.Step` | ViewModels/ScryWindowViewModel.cs:61-66 | every event, including each bound command, preserves the view's consistency and the clipboard history invariant; poll reads leave the view alone and window events leave the tracker alone; invoking the cancel command only raises one cancellation request |
| `App.Run` | ViewModels/ScryWindowViewModel.cs:61-66 | the invariant holds after any sequence of events, and the tracker is untouched by a run without clipboard reads |
| `App.ShowingResets` | Views/ScryWindow.axaml.cs:42-53 | showing and hiding the window both reset the view model to the prefix phase |

## Left out

- The Win32 keyboard hook (GlobalHotkey.cs), window life cycle, caret
  placement and visibility toggling are not modelled. They are OS and UI
  plumbing. Only their effect on the view model is kept: showing and hiding
  call `Reset`.
- The parameterless designer constructor is not modelled, and neither is the
  fallback entry "run" / "launch apps" that `GetListEntries` returns when
  there is no executor. In that state the view model has no executor and
  its relay commands are unset.
- RunHandler, ScriptHandler and InstalledAppHandler are not part of this
  model. They enumerate the file system and Start-menu shortcuts. A handler
  whose code is absent is `OpaqueHandler`, whose options and execution are
  parameters of `Handlers.Platform`. The script handler is registered without
  a description.
- The asynchronous polling loop, its one-second delay, and the unsynchronised
  sharing of the history between the loop and `Execute` are not modelled.
  Only one iteration of the loop is modelled, as `Clipboard.Poll`.
- The clipboard write-back in `Clipboard.Execute` is fire-and-forget, so
  it is not modelled. A later poll step would see the written text.
- `Process.Start`, `Uri.EscapeDataString`, the Windows platform check and the
  `PATH` scan are parameters. The `PATH` scan runs once (`Lazy`), so every
  call sees the same list.
- Fuzzy.IsFuzzyMatch: strings are modelled as sequences of Unicode
  characters, but .NET strings are sequences of UTF-16 code units. The
  source compares code units, so a character outside the Basic Multilingual
  Plane is two units there and its halves can match separately. For example,
  the query "😀" (D83D DE00) matches the text "😁" followed by U+10600
  (D83D DE01 D801 DE00) in the source but not in the model. Lengths,
  trimming and splitting agree for every text made of Basic Multilingual
  Plane characters.
- Executor.ListEntries and Web.Options take the enumeration order of
  `Dictionary.Values` and `Dictionary.Keys` to be insertion order. .NET does
  not specify that order; it holds for a dictionary with no removals.
- Text.Lower: only the ASCII letters are case-mapped, so non-ASCII case
  mapping in `ToLowerInvariant` and `OrdinalIgnoreCase` is not modelled.
- ViewModel.SelectedItem: the list control's own coercion of `SelectedIndex`
  when `Items` is replaced is not modelled. The index changes only through
  the view model's own code.
- The `CaretMoveRequested` and `CancelRequested` events are counters, and
  their subscribers are not modelled.
- Executor.Build: the registry assumes every prefix is one word, non-empty
  and without white space. `ToDictionary` accepts any non-null prefix. The
  built-in prefixes are words, so only the prefix of RunHandler, which is
  not part of this model, is assumed to be one word. The view-model
  properties that rely on this are stated under that assumption.
- Exceptions other than those thrown by `Process.Start` and caught by the
  source are not modelled.

=== FILE: app.dfy ===
/** The launcher as a whole, seen from outside: the view model driven by the
    window's events, beside the clipboard tracker that the polling loop
    advances. The clipboard handler reads the history the tracker has
    reached. */
module App {
  import opened Base
  import Clipboard
  import Executor
  import Handlers
  import VM = ViewModel

  datatype World = World(view: VM.State, tracker: Clipboard.Tracker)

  /** What can happen: the user edits the text box, presses a key the view
      model binds (Enter, Tab, Up, Down) or invokes its cancel command,
      clicks an entry (or empty space), the window is shown or
      hidden (Escape and losing focus hide it), or the polling loop reads the
      clipboard (`None` for a null text). */
  datatype Event =
    | Typed(text: string)
    | EnterKey
    | TabKey
    | UpKey
    | DownKey
    | CancelInvoked
    | Clicked(entry: Option<Entry>)
    | Shown
    | Hidden
    | ClipboardRead(current: Option<string>)

  function ContextOf(w: World, reg: Executor.Registry, platform: Handlers.Platform): VM.Context {
    VM.Context(reg, Handlers.Env(w.tracker.history, platform))
  }

  /** What holds of the launcher between events. */
  predicate Invariant(w: World, reg: Executor.Registry) {
    VM.Consistent(w.view, reg) && Clipboard.ValidHistory(w.tracker.history)
  }

  /** The launcher right after start-up. */
  function Start(reg: Executor.Registry, platform: Handlers.Platform): (w: World)
    ensures Invariant(w, reg)
    ensures w.view.handler.None? && w.view.items == Executor.ListEntries(reg) && w.tracker.history == []
  {
    var tracker := Clipboard.Tracker([], None);
    World(VM.Initial(VM.Context(reg, Handlers.Env(tracker.history, platform))), tracker)
  }

  /** One event. The view model and the tracker only meet through the
      clipboard history the handlers read. */
  function Step(w: World, ev: Event, reg: Executor.Registry, platform: Handlers.Platform): (r: World)
    ensures Invariant(w, reg) ==> Invariant(r, reg)
    ensures ev.ClipboardRead? ==> r.view == w.view
    ensures !ev.ClipboardRead? ==> r.tracker == w.tracker
    ensures ev.CancelInvoked? ==> r.view == w.view.(cancelRequests := w.view.cancelRequests + 1)
  {
    var ctx := ContextOf(w, reg, platform);
    match ev
    case Typed(text) => w.(view := VM.SetCommandText(w.view, text, ctx))
    case EnterKey => w.(view := VM.Enter(w.view, ctx))
    case TabKey => w.(view := VM.Tab(w.view, ctx))
    case UpKey => w.(view := VM.MoveUp(w.view))
    case DownKey => w.(view := VM.MoveDown(w.view))
    case CancelInvoked => w.(view := VM.Cancel(w.view))
    case Clicked(entry) => w.(view := VM.ItemClick(w.view, entry, ctx))
    case Shown => w.(view := VM.Reset(w.view, ctx))
    case Hidden => w.(view := VM.Reset(w.view, ctx))
    case ClipboardRead(current) => w.(tracker := Clipboard.Poll(w.tracker, current))
  }

  /** A run of events, one after the other. */
  function Run(w: World, events: seq<Event>, reg: Executor.Registry, platform: Handlers.Platform): (r: World)
    ensures Invariant(w, reg) ==> Invariant(r, reg)
    ensures (forall i | 0 <= i < |events| :: !events[i].ClipboardRead?) ==> r.tracker == w.tracker
    decreases |events|
  {
    if |events| == 0 then w
    else
      var next := Step(w, events[0], reg, platform);
      assert forall i | 1 <= i < |events| :: events[i] == events[1..][i - 1];
      Run(next, events[1..], reg, platform)
  }

  /** Showing or hiding the window always returns to the prefix phase with
      every prefix listed and nothing ready, whatever happened before. */
  lemma ShowingResets(w: World, reg: Executor.Registry, platform: Handlers.Platform)
    ensures var r := Step(w, Shown, reg, platform);
      && r.view.commandText == "" && r.view.handler.None? && !r.view.executeReady
      && r.view.items == Executor.ListEntries(reg) && r.view.errorMessage.None?
    ensures Step(w, Hidden, reg, platform) == Step(w, Shown, reg, platform)
  {
  }
}

=== FILE: base.dfy ===
/** Values shared by every part of the launcher model: optional values, the outcome
    a handler reports, the candidate entries shown in the list, and the
    process-start primitive that the handlers call. */
module Base {

  /** A value that may be absent (a C# `null`). */
  datatype Option<+T> = None | Some(value: T)

  /** `ExecuteResult` and `LaunchResult`: success, or failure with a message. */
  datatype Outcome = Succeeded | Failed(message: string)

  /** `ListEntry`: one selectable candidate, a prefix or an argument. */
  datatype Entry = Entry(value: string, description: Option<string>)

  /** What `Process.Start` was asked to open. */
  datatype StartInfo = StartInfo(file: string, arguments: string, useShellExecute: bool)

  /** What `Process.Start` did: it returned, or it threw an exception with a message. */
  datatype StartResult = Started | Threw(message: string)

  /** Plain strings offered as entries without a description. */
  function PlainEntries(values: seq<string>): (r: seq<Entry>)
    ensures |r| == |values|
    ensures forall i | 0 <= i < |values| :: r[i] == Entry(values[i], None)
  {
    seq(|values|, i requires 0 <= i < |values| => Entry(values[i], None))
  }
}

=== FILE: clipboard.dfy ===
/** `ClipboardHandler`: a bounded, duplicate-free, most-recent-first history of
    clipboard texts, filled by a polling loop, offered as options and copied
    back to the clipboard on execution. */
module Clipboard {
  import opened Base
  import opened Text

  const Prefix := "clipboard"
  const Description := "clipboard history"

  /** The most entries the history keeps. */
  const Capacity: nat := 50

  predicate NoDuplicates(history: seq<string>) {
    forall i, j | 0 <= i < j < |history| :: history[i] != history[j]
  }

  /** What every poll step keeps true of `_historyTexts`. */
  predicate ValidHistory(history: seq<string>) {
    |history| <= Capacity && NoDuplicates(history)
  }

  /** The tracker's state: `_historyTexts` and `_lastSeen`. */
  datatype Tracker = Tracker(history: seq<string>, lastSeen: Option<string>)

  /** The insertion of a new clipboard text: a text already in the history is
      dropped (not promoted); a new one goes to the front, and only the last,
      oldest, entry is evicted when that exceeds the capacity. */
  function Remember(history: seq<string>, text: string): (r: seq<string>)
    ensures text in history ==> r == history
    ensures text !in history ==> |r| == (if |history| < Capacity then |history| + 1 else |history|)
    ensures text !in history ==> r == ([text] + history)[..|r|]
    ensures ValidHistory(history) ==> ValidHistory(r)
  {
    if text in history then history
    else
      var inserted := [text] + history;
      assert forall i | 1 <= i < |inserted| :: inserted[i] == history[i - 1];
      if |inserted| > Capacity then inserted[..|inserted| - 1] else inserted
  }

  /** One iteration of the polling loop, given what the clipboard read
      returned (`None` for a null text). */
  function Poll(t: Tracker, current: Option<string>): (r: Tracker)
    ensures current.None? || IsBlank(current.value) || current == t.lastSeen ==> r == t
    ensures current.Some? && !IsBlank(current.value) && current != t.lastSeen ==>
              r.lastSeen == current && r.history == Remember(t.history, current.value)
    ensures ValidHistory(t.history) ==> ValidHistory(r.history)
  {
    if current.Some? && !IsBlank(current.value) && current != t.lastSeen then
      Tracker(Remember(t.history, current.value), current)
    else
      t
  }

  /** `GetOptions`: the history in order, without descriptions. */
  function Options(history: seq<string>): (r: seq<Entry>)
    ensures |r| == |history|
    ensures forall i | 0 <= i < |r| :: r[i].value == history[i] && r[i].description.None?
  {
    PlainEntries(history)
  }

  /** `Execute`: only a text in the history (compared exactly) is accepted;
      the write back to the clipboard is not awaited, so acceptance is
      success. */
  function Execute(history: seq<string>, key: string): (r: Outcome)
    ensures r.Succeeded? <==> key in history
    ensures r.Failed? ==> r.message == "Unknown clipboard entry: " + key
  {
    if key !in history then Failed("Unknown clipboard entry: " + key) else Succeeded
  }

  /** Copying "a", then "b", then "a" again leaves ["b", "a"]: the repeated
      text is dropped rather than promoted. */
  lemma DuplicateIsDropped()
    ensures Poll(Poll(Poll(Tracker([], None), Some("a")), Some("b")), Some("a"))
            == Tracker(["b", "a"], Some("a"))
  {
    assert !IsWhiteSpace("a"[0]) && !IsWhiteSpace("b"[0]);
    assert Poll(Tracker([], None), Some("a")) == Tracker(["a"], Some("a"));
    assert "b" !in ["a"];
    assert Poll(Tracker(["a"], Some("a")), Some("b")) == Tracker(["b", "a"], Some("b"));
  }
}

=== FILE: exe.dfy ===
/** `ExeHandler`: the executables found on the `PATH`, computed once, offered
    as options and launched by name. */
module Exe {
  import opened Base
  import opened Text
  import opened Subsequence

  const Prefix := "exe"

  predicate NoDuplicatesIgnoreCase(names: seq<string>) {
    forall i, j | 0 <= i < j < |names| :: !EqualsIgnoreCase(names[i], names[j])
  }

  /** The names of `r` come in the order in which `names` first spells them,
      ignoring case. */
  predicate InScanOrder(r: seq<string>, names: seq<string>) {
    forall i, j | 0 <= i < j < |r| :: IndexOfIgnoreCase(names, r[i]) < IndexOfIgnoreCase(names, r[j])
  }

  /** Names that the first one does not spell keep their order when it is put
      back in front. */
  lemma OrderSkipsFront(names: seq<string>, r: seq<string>)
    requires |names| > 0 && InScanOrder(r, names[1..])
    requires forall k | 0 <= k < |r| :: !EqualsIgnoreCase(names[0], r[k])
    ensures InScanOrder(r, names)
  {
    forall k | 0 <= k < |r|
      ensures IndexOfIgnoreCase(names, r[k]) == 1 + IndexOfIgnoreCase(names[1..], r[k])
    {
      assert !EqualsIgnoreCase(names[0], r[k]);
    }
  }

  /** The first name itself, in front of names it does not spell, comes first. */
  lemma OrderAfterFront(names: seq<string>, rest: seq<string>)
    requires |names| > 0 && InScanOrder(rest, names[1..])
    requires forall k | 0 <= k < |rest| :: !EqualsIgnoreCase(names[0], rest[k])
    ensures InScanOrder([names[0]] + rest, names)
  {
    OrderSkipsFront(names, rest);
    var r := [names[0]] + rest;
    forall i, j | 0 <= i < j < |r|
      ensures IndexOfIgnoreCase(names, r[i]) < IndexOfIgnoreCase(names, r[j])
    {
      assert r[j] == rest[j - 1];
      if i > 0 { assert r[i] == rest[i - 1]; }
    }
  }

  /** `Distinct(StringComparer.OrdinalIgnoreCase)` of the names after the ones
      in `seen`: the first spelling of every name survives, in scan order. */
  function DistinctAfter(names: seq<string>, seen: seq<string>): (r: seq<string>)
    ensures IsSubsequence(r, names)
    ensures NoDuplicatesIgnoreCase(r)
    ensures forall i | 0 <= i < |r| :: !ContainsIgnoreCase(seen, r[i])
    ensures forall i | 0 <= i < |names| ::
              ContainsIgnoreCase(seen, names[i]) || ContainsIgnoreCase(r, names[i])
    decreases |names|
  {
    if |names| == 0 then []
    else if ContainsIgnoreCase(seen, names[0]) then
      var r := DistinctAfter(names[1..], seen);
      assert forall i | 1 <= i < |names| :: names[i] == names[1..][i - 1];
      r
    else
      var x := names[0];
      var rest := DistinctAfter(names[1..], seen + [x]);
      var r := [x] + rest;
      assert r[1..] == rest;
      assert forall i | 1 <= i < |names| :: names[i] == names[1..][i - 1];
      assert forall i | 0 <= i < |rest| :: !EqualsIgnoreCase(x, rest[i]) by {
        forall i | 0 <= i < |rest| ensures !EqualsIgnoreCase(x, rest[i]) {
          assert (seen + [x])[|seen|] == x;
        }
      }
      assert forall i | 0 <= i < |rest| :: !ContainsIgnoreCase(seen, rest[i]) by {
        forall i, k | 0 <= i < |rest| && 0 <= k < |seen|
          ensures !EqualsIgnoreCase(seen[k], rest[i])
        {
          assert (seen + [x])[k] == seen[k];
        }
      }
      assert forall i | 0 <= i < |names| :: ContainsIgnoreCase(seen, names[i]) || ContainsIgnoreCase(r, names[i]) by {
        forall i | 0 <= i < |names|
          ensures ContainsIgnoreCase(seen, names[i]) || ContainsIgnoreCase(r, names[i])
        {
          if i == 0 {
            assert EqualsIgnoreCase(r[0], names[0]);
          } else if ContainsIgnoreCase(seen + [x], names[i]) {
            var k :| 0 <= k < |seen + [x]| && EqualsIgnoreCase((seen + [x])[k], names[i]);
            if k == |seen| {
              assert EqualsIgnoreCase(r[0], names[i]);
            } else {
              assert EqualsIgnoreCase(seen[k], names[i]);
            }
          } else {
            assert ContainsIgnoreCase(rest, names[1..][i - 1]);
            var k :| 0 <= k < |rest| && EqualsIgnoreCase(rest[k], names[i]);
            assert EqualsIgnoreCase(r[k + 1], names[i]);
          }
        }
      }
      r
  }

  /** The surviving names keep the order of their first spellings. */
  lemma {:induction false} DistinctAfterInScanOrder(names: seq<string>, seen: seq<string>)
    ensures InScanOrder(DistinctAfter(names, seen), names)
    decreases |names|
  {
    if |names| == 0 { return; }
    var x := names[0];
    if ContainsIgnoreCase(seen, x) {
      var r := DistinctAfter(names[1..], seen);
      DistinctAfterInScanOrder(names[1..], seen);
      forall k | 0 <= k < |r| ensures !EqualsIgnoreCase(x, r[k]) {
        var j :| 0 <= j < |seen| && EqualsIgnoreCase(seen[j], x);
        assert !ContainsIgnoreCase(seen, r[k]);
      }
      OrderSkipsFront(names, r);
    } else {
      var rest := DistinctAfter(names[1..], seen + [x]);
      DistinctAfterInScanOrder(names[1..], seen + [x]);
      forall k | 0 <= k < |rest| ensures !EqualsIgnoreCase(x, rest[k]) {
        assert !ContainsIgnoreCase(seen + [x], rest[k]);
        assert (seen + [x])[|seen|] == x;
      }
      OrderAfterFront(names, rest);
    }
  }

  /** The name at `i` is spelled there for the first time: neither `seen` nor
      an earlier name equals it ignoring case. */
  predicate FirstSpelling(names: seq<string>, seen: seq<string>, i: nat)
    requires i < |names|
  {
    !ContainsIgnoreCase(seen, names[i]) && !ContainsIgnoreCase(names[..i], names[i])
  }

  /** The spelling that survives is the first one met in scan order. */
  lemma {:induction false} DistinctAfterKeepsFirst(names: seq<string>, seen: seq<string>)
    ensures forall i | 0 <= i < |names| && FirstSpelling(names, seen, i) :: names[i] in DistinctAfter(names, seen)
    decreases |names|
  {
    if |names| == 0 { return; }
    var x := names[0];
    var tail := names[1..];
    var r := DistinctAfter(names, seen);
    forall i | 0 <= i < |names| && FirstSpelling(names, seen, i)
      ensures names[i] in r
    {
      if i > 0 {
        assert names[i] == tail[i - 1];
        assert !EqualsIgnoreCase(x, names[i]) by { assert names[..i][0] == x; }
        assert !ContainsIgnoreCase(tail[..i - 1], names[i]) by {
          var front := tail[..i - 1];
          forall k | 0 <= k < |front| ensures !EqualsIgnoreCase(front[k], names[i]) {
            assert front[k] == names[..i][k + 1];
          }
        }
        if ContainsIgnoreCase(seen, x) {
          DistinctAfterKeepsFirst(tail, seen);
          assert FirstSpelling(tail, seen, i - 1);
        } else {
          DistinctAfterKeepsFirst(tail, seen + [x]);
          assert !ContainsIgnoreCase(seen + [x], names[i]) by {
            forall k | 0 <= k < |seen + [x]| ensures !EqualsIgnoreCase((seen + [x])[k], names[i]) {
              if k < |seen| { assert (seen + [x])[k] == seen[k]; }
            }
          }
          assert FirstSpelling(tail, seen + [x], i - 1);
          assert r == [x] + DistinctAfter(tail, seen + [x]);
        }
      }
    }
  }

  /** The lazily computed option list: the names the `PATH` scan found, without
      case-insensitive duplicates. */
  function Executables(found: seq<string>): (r: seq<string>)
    ensures NoDuplicatesIgnoreCase(r)
    ensures IsSubsequence(r, found)
    ensures forall i | 0 <= i < |found| :: ContainsIgnoreCase(r, found[i])
    ensures forall i | 0 <= i < |found| && !ContainsIgnoreCase(found[..i], found[i]) :: found[i] in r
    ensures InScanOrder(r, found)
  {
    var r := DistinctAfter(found, []);
    assert forall i | 0 <= i < |found| :: !ContainsIgnoreCase([], found[i]);
    DistinctAfterKeepsFirst(found, []);
    DistinctAfterInScanOrder(found, []);
    assert forall i | 0 <= i < |found| && !ContainsIgnoreCase(found[..i], found[i]) :: FirstSpelling(found, [], i);
    r
  }

  /** Deduplication changes no answer to a case-insensitive membership test. */
  lemma ExecutablesKeepMembership(found: seq<string>, key: string)
    ensures ContainsIgnoreCase(Executables(found), key) <==> ContainsIgnoreCase(found, key)
  {
    var r := Executables(found);
    SubsequenceMembers(r, found);
    if ContainsIgnoreCase(r, key) {
      var k :| 0 <= k < |r| && EqualsIgnoreCase(r[k], key);
      assert r[k] in found;
      var j :| 0 <= j < |found| && found[j] == r[k];
    }
    if ContainsIgnoreCase(found, key) {
      var j :| 0 <= j < |found| && EqualsIgnoreCase(found[j], key);
      assert ContainsIgnoreCase(r, found[j]);
    }
  }

  /** `GetOptions`: the executables, offered without descriptions. */
  function Options(found: seq<string>): (r: seq<Entry>)
    ensures |r| == |Executables(found)|
    ensures forall i | 0 <= i < |r| :: r[i] == Entry(Executables(found)[i], None)
  {
    PlainEntries(Executables(found))
  }

  /** `Execute(key)`: a key that is no executable (ignoring case) fails before
      anything is started; otherwise `key + ".exe"` is opened through the
      shell, and an exception from that becomes a failure with its message. */
  function Execute(found: seq<string>, key: string, start: StartInfo -> StartResult): (r: Outcome)
    ensures !ContainsIgnoreCase(found, key) ==> r == Failed("Unknown executable: " + key)
    ensures ContainsIgnoreCase(found, key) ==>
              var launched := start(StartInfo(key + ".exe", "", true));
              r == if launched.Started? then Succeeded else Failed(launched.message)
  {
    ExecutablesKeepMembership(found, key);
    if !ContainsIgnoreCase(Executables(found), key) then Failed("Unknown executable: " + key)
    else
      match start(StartInfo(key + ".exe", "", true))
      case Started => Succeeded
      case Threw(m) => Failed(m)
  }
}

=== FILE: executor.dfy ===
/** `ProcessExecutor`: the registry of handlers, indexed by prefix ignoring
    case, which lists the prefixes, hands out options, and parses and
    dispatches a whole `<prefix> <key>` command. */
module Executor {
  import opened Base
  import opened Text
  import opened Handlers

  /** A prefix is one word: non-empty and free of white space. */
  predicate WellFormedPrefix(p: string) {
    |p| > 0 && forall i | 0 <= i < |p| :: !IsWhiteSpace(p[i])
  }

  predicate DistinctPrefixes(handlers: seq<Handler>) {
    forall i, j | 0 <= i < j < |handlers| ::
      !EqualsIgnoreCase(handlers[i].Prefix(), handlers[j].Prefix())
  }

  predicate ValidHandlers(handlers: seq<Handler>) {
    && DistinctPrefixes(handlers)
    && forall i | 0 <= i < |handlers| :: WellFormedPrefix(handlers[i].Prefix())
  }

  /** `_handlers`: one-word prefixes, no two equal ignoring case. */
  type Registry = handlers: seq<Handler> | ValidHandlers(handlers) witness []

  /** `list.ToDictionary(h => h.Prefix, StringComparer.OrdinalIgnoreCase)`,
      which throws on a repeated key. */
  function Build(handlers: seq<Handler>): (r: Option<Registry>)
    requires forall i | 0 <= i < |handlers| :: WellFormedPrefix(handlers[i].Prefix())
    ensures r.Some? <==> DistinctPrefixes(handlers)
    ensures r.Some? ==> r.value == handlers
  {
    if DistinctPrefixes(handlers) then Some(handlers) else None
  }

  /** The handler list of the constructor, in order, around a `RunHandler`
      whose code is not part of this model. */
  function StandardHandlers(run: Handler): seq<Handler> {
    [run, ExeHandler, WebHandler, OpaqueHandler("script", None, false),
     SearchHandler, SystemHandler, ClipboardHandler]
  }

  lemma BuiltInPrefixes()
    ensures Lower("exe") == "exe" && Lower("web") == "web" && Lower("script") == "script"
    ensures Lower("search") == "search" && Lower("sys") == "sys" && Lower("clipboard") == "clipboard"
    ensures WellFormedPrefix("exe") && WellFormedPrefix("web") && WellFormedPrefix("script")
    ensures WellFormedPrefix("search") && WellFormedPrefix("sys") && WellFormedPrefix("clipboard")
  {
  }

  /** The constructor succeeds as long as the run handler's prefix is a word
      that none of the other six prefixes equals ignoring case. */
  lemma StandardHandlersBuild(run: Handler)
    requires WellFormedPrefix(run.Prefix())
    requires Lower(run.Prefix()) !in ["exe", "web", "script", "search", "sys", "clipboard"]
    ensures Build(StandardHandlers(run)).Some?
  {
    BuiltInPrefixes();
  }

  /** The first handler whose prefix equals `prefix` ignoring case. */
  function Find(handlers: seq<Handler>, prefix: string): (r: Option<Handler>)
    ensures r.Some? <==> exists i | 0 <= i < |handlers| :: EqualsIgnoreCase(handlers[i].Prefix(), prefix)
    ensures r.Some? ==> r.value in handlers && EqualsIgnoreCase(r.value.Prefix(), prefix)
  {
    if |handlers| == 0 then None
    else if EqualsIgnoreCase(handlers[0].Prefix(), prefix) then Some(handlers[0])
    else
      var r := Find(handlers[1..], prefix);
      assert forall i | 1 <= i < |handlers| :: handlers[i] == handlers[1..][i - 1];
      r
  }

  /** `TryGetHandler(prefix)`: found exactly when some prefix equals it
      ignoring case, and then it is that prefix's handler. */
  function TryGetHandler(reg: Registry, prefix: string): (r: Option<Handler>)
    ensures r.Some? <==> exists i | 0 <= i < |reg| :: EqualsIgnoreCase(reg[i].Prefix(), prefix)
    ensures r.Some? ==> r.value in reg && EqualsIgnoreCase(r.value.Prefix(), prefix)
    ensures forall i | 0 <= i < |reg| && EqualsIgnoreCase(reg[i].Prefix(), prefix) :: r == Some(reg[i])
  {
    var r := Find(reg, prefix);
    assert r.Some? ==> exists j | 0 <= j < |reg| :: reg[j] == r.value;
    r
  }

  /** Looking up a lower-cased prefix finds the same handler as looking up
      the prefix itself. */
  lemma TryGetHandlerIgnoresCase(reg: Registry, prefix: string)
    ensures TryGetHandler(reg, Lower(prefix)) == TryGetHandler(reg, prefix)
  {
    LowerIdempotent(prefix);
    assert forall i | 0 <= i < |reg| ::
      EqualsIgnoreCase(reg[i].Prefix(), Lower(prefix)) == EqualsIgnoreCase(reg[i].Prefix(), prefix);
  }

  /** `ListEntries`: one entry per handler, in registration order, with the
      handler's prefix and description. */
  function ListEntries(reg: Registry): (r: seq<Entry>)
    ensures |r| == |reg|
    ensures forall i | 0 <= i < |reg| :: r[i] == Entry(reg[i].Prefix(), reg[i].Description())
  {
    seq(|reg|, i requires 0 <= i < |reg| => Entry(reg[i].Prefix(), reg[i].Description()))
  }

  /** Every listed prefix resolves back to its own handler. */
  lemma ListedPrefixesResolve(reg: Registry)
    ensures forall i | 0 <= i < |reg| :: TryGetHandler(reg, ListEntries(reg)[i].value) == Some(reg[i])
  {
  }

  /** `GetOptions(prefix)`: the options of the handler registered under that
      prefix (ignoring case), or none for an unknown prefix. */
  function GetOptions(reg: Registry, prefix: string, env: Env): (r: seq<Entry>)
    ensures TryGetHandler(reg, prefix).None? ==> r == []
    ensures forall i | 0 <= i < |reg| && EqualsIgnoreCase(reg[i].Prefix(), prefix) :: r == reg[i].Options(env)
  {
    match TryGetHandler(reg, prefix)
    case Some(h) => h.Options(env)
    case None => []
  }

  /** A registered handler's own prefix hands out that handler's options. */
  lemma OwnOptions(reg: Registry, h: Handler, env: Env)
    ensures h in reg ==> GetOptions(reg, h.Prefix(), env) == h.Options(env)
  {
    if h in reg {
      var i :| 0 <= i < |reg| && reg[i] == h;
      assert EqualsIgnoreCase(reg[i].Prefix(), h.Prefix());
    }
  }

  const Malformed := "Must be `<prefix> <key>`"

  /** `Execute(command)`: a blank command, a command without a key after its
      first word, and an unknown first word are refused; otherwise the key
      goes to the handler of that prefix and its outcome is the result. */
  function Execute(reg: Registry, command: string, env: Env): (r: Outcome)
    ensures IsBlank(command) ==> r == Failed("Empty command")
    ensures !IsBlank(command) && |SplitPrefixKey(command)| != 2 ==> r == Failed(Malformed)
    ensures !IsBlank(command) && |SplitPrefixKey(command)| == 2 ==>
              var prefix := SplitPrefixKey(command)[0];
              var key := SplitPrefixKey(command)[1];
              && (TryGetHandler(reg, prefix).None? ==> r == Failed("Unknown prefix: " + prefix))
              && (forall i | 0 <= i < |reg| && EqualsIgnoreCase(reg[i].Prefix(), prefix) ::
                    r == reg[i].Execute(key, env))
  {
    if IsBlank(command) then Failed("Empty command")
    else
      var parts := SplitPrefixKey(command);
      if |parts| != 2 then Failed(Malformed)
      else
        var prefix := parts[0];
        var key := parts[1];
        match TryGetHandler(reg, prefix)
        case None => Failed("Unknown prefix: " + prefix)
        case Some(handler) => handler.Execute(key, env)
  }

  /** Shape of a command: optional leading spaces, a word, at least one
      space, and a key that does not start with a space. */
  predicate IsWord(p: string) {
    |p| > 0 && ' ' !in p && !IsWhiteSpace(p[0])
  }

  lemma CommandIsNotBlank(n: nat, p: string, rest: string)
    requires IsWord(p)
    ensures !IsBlank(Spaces(n) + p + rest)
  {
    assert (Spaces(n) + p + rest)[n] == p[0];
  }

  /** A command naming a registered prefix (in any case) runs exactly that
      handler on the key. */
  lemma ExecuteDispatches(reg: Registry, i: nat, n: nat, p: string, m: nat, key: string, env: Env)
    requires i < |reg| && IsWord(p) && EqualsIgnoreCase(reg[i].Prefix(), p)
    requires m >= 1 && |key| > 0 && key[0] != ' '
    ensures Execute(reg, Spaces(n) + p + Spaces(m) + key, env) == reg[i].Execute(key, env)
  {
    CommandIsNotBlank(n, p, Spaces(m) + key);
    assert Spaces(n) + p + Spaces(m) + key == Spaces(n) + p + (Spaces(m) + key);
    SplitPrefixKeyOfCommand(n, p, m, key);
  }

  /** A command whose first word is not registered fails naming that word. */
  lemma ExecuteUnknownPrefix(reg: Registry, n: nat, p: string, m: nat, key: string, env: Env)
    requires IsWord(p) && TryGetHandler(reg, p).None?
    requires m >= 1 && |key| > 0 && key[0] != ' '
    ensures Execute(reg, Spaces(n) + p + Spaces(m) + key, env) == Failed("Unknown prefix: " + p)
  {
    CommandIsNotBlank(n, p, Spaces(m) + key);
    assert Spaces(n) + p + Spaces(m) + key == Spaces(n) + p + (Spaces(m) + key);
    SplitPrefixKeyOfCommand(n, p, m, key);
  }

  /** A single word, with or without spaces around it ("run", "run "), is
      refused as malformed. */
  lemma ExecuteWithoutKey(reg: Registry, n: nat, p: string, m: nat, env: Env)
    requires IsWord(p)
    ensures Execute(reg, Spaces(n) + p + Spaces(m), env) == Failed(Malformed)
  {
    CommandIsNotBlank(n, p, Spaces(m));
    SplitPrefixKeyOfWord(n, p, m);
  }
}

=== FILE: fuzzy.dfy ===
/** The fuzzy matcher of the view model (`IsFuzzyMatch`) and the filtering of
    candidate entries through it. */
module Fuzzy {
  import opened Base
  import opened Text
  import opened Subsequence

  /** The two-pointer scan of `IsFuzzyMatch` from `ti` and `qi` on: the query
      index it stops at. */
  function GreedyScan(t: string, q: string, ti: nat, qi: nat): (r: nat)
    requires ti <= |t| && qi <= |q|
    ensures qi <= r <= |q|
    ensures r == |q| <==> IsSubsequence(q[qi..], t[ti..])
    decreases |t| - ti
  {
    if qi < |q| && ti < |t| then
      assert t[ti..][1..] == t[ti + 1..];
      assert q[qi..][1..] == q[qi + 1..];
      if q[qi] == t[ti] then
        GreedyStep(q[qi..], t[ti..]);
        GreedyScan(t, q, ti + 1, qi + 1)
      else
        GreedyScan(t, q, ti + 1, qi)
    else
      qi
  }

  /** `IsFuzzyMatch(target, query)`: an empty query matches everything, a
      non-empty query never matches an empty target, and otherwise the query
      matches exactly when its lower-cased characters occur in order in the
      lower-cased target. The case-insensitive prefix test is a shortcut of
      that: a prefix is a subsequence. */
  function IsFuzzyMatch(target: string, query: string): (r: bool)
    ensures |query| == 0 ==> r
    ensures |query| > 0 && |target| == 0 ==> !r
    ensures r <==> IsSubsequence(Lower(query), Lower(target))
  {
    if |query| == 0 then true
    else if |target| == 0 then false
    else if StartsWithIgnoreCase(target, query) then
      LowerPrefix(target, |query|);
      PrefixIsSubsequence(Lower(query), Lower(target));
      true
    else
      assert Lower(query)[0..] == Lower(query);
      assert Lower(target)[0..] == Lower(target);
      GreedyScan(Lower(target), Lower(query), 0, 0) == |query|
  }

  /** The `IsFuzzyMatch` loop as the source writes it: one pass over the
      lower-cased target, consuming a query character at each match. */
  method FuzzyMatch(target: string, query: string) returns (matched: bool)
    ensures matched <==> IsSubsequence(Lower(query), Lower(target))
    ensures matched == IsFuzzyMatch(target, query)
  {
    if |query| == 0 {
      return true;
    }
    if |target| == 0 {
      return false;
    }
    if StartsWithIgnoreCase(target, query) {
      LowerPrefix(target, |query|);
      PrefixIsSubsequence(Lower(query), Lower(target));
      return true;
    }
    var targetLower := Lower(target);
    var queryLower := Lower(query);
    var queryIndex := 0;
    var targetIndex := 0;
    assert queryLower[0..] == queryLower && targetLower[0..] == targetLower;
    while queryIndex < |queryLower| && targetIndex < |targetLower|
      invariant 0 <= queryIndex <= |queryLower|
      invariant 0 <= targetIndex <= |targetLower|
      invariant IsSubsequence(queryLower[queryIndex..], targetLower[targetIndex..])
                <==> IsSubsequence(queryLower, targetLower)
      decreases |targetLower| - targetIndex
    {
      assert targetLower[targetIndex..][1..] == targetLower[targetIndex + 1..];
      if queryLower[queryIndex] == targetLower[targetIndex] {
        GreedyStep(queryLower[queryIndex..], targetLower[targetIndex..]);
        assert queryLower[queryIndex..][1..] == queryLower[queryIndex + 1..];
        queryIndex := queryIndex + 1;
      }
      targetIndex := targetIndex + 1;
    }
    matched := queryIndex == |queryLower|;
  }

  /** `entries.Where(e => IsFuzzyMatch(e.Value, query))`: the matching entries,
      all of them and every copy of each, in their original order. */
  function FilterMatches(entries: seq<Entry>, query: string): (r: seq<Entry>)
    ensures IsSubsequence(r, entries)
    ensures forall e | e in r :: IsFuzzyMatch(e.value, query)
    ensures forall e | e in entries && IsFuzzyMatch(e.value, query) :: e in r
    ensures forall e :: multiset(r)[e] == if IsFuzzyMatch(e.value, query) then multiset(entries)[e] else 0
  {
    if |entries| == 0 then []
    else
      var rest := FilterMatches(entries[1..], query);
      assert entries == [entries[0]] + entries[1..];
      assert multiset(entries) == multiset([entries[0]]) + multiset(entries[1..]);
      assert forall e | e in entries && e != entries[0] :: e in entries[1..];
      if IsFuzzyMatch(entries[0].value, query) then
        assert ([entries[0]] + rest)[1..] == rest;
        [entries[0]] + rest
      else
        rest
  }

  /** Filtering with an empty query keeps every entry. */
  lemma {:induction false} FilterEmptyQuery(entries: seq<Entry>)
    ensures FilterMatches(entries, "") == entries
  {
    if |entries| > 0 {
      FilterEmptyQuery(entries[1..]);
    }
  }

  lemma FuzzyExamples()
    ensures IsFuzzyMatch("Calculator", "ccl")
    ensures !IsFuzzyMatch("cat", "tc")
    ensures IsFuzzyMatch("clipboard", "CLIP")
  {
    CalculatorExample();
    OrderExample();
    assert Lower("CLIP") == "clip" && Lower("clipboard") == "clipboard";
  }

  lemma CalculatorExample()
    ensures IsFuzzyMatch("Calculator", "ccl")
  {
    assert Lower("ccl") == "ccl";
    assert Lower("Calculator") == "calculator";
    assert IsSubsequence("l", "lator");
    assert IsSubsequence("cl", "culator");
  }

  lemma OrderExample()
    ensures !IsFuzzyMatch("cat", "tc")
  {
    assert Lower("tc") == "tc";
    assert Lower("cat") == "cat";
    assert !IsSubsequence("c", "");
    assert !IsSubsequence("tc", "t");
  }
}

=== FILE: handlers.dfy ===
/** The handler capability (`ICommandHandler`) as one datatype with a variant
    per handler, and the world outside the core that the handlers consult. */
module Handlers {
  import opened Base
  import opened Text
  import Clipboard
  import SystemCommands
  import Web
  import Exe
  import Search

  /** The foreign collaborators: what the `PATH` scan found, whether the
      platform is Windows, what `Process.Start` does with a start request,
      `Uri.EscapeDataString`, and the handlers whose code is not part of this
      model (their options and their execution, by prefix). */
  datatype Platform = Platform(
    pathExecutables: seq<string>,
    onWindows: bool,
    start: StartInfo -> StartResult,
    escape: string -> string,
    opaqueOptions: string -> seq<Entry>,
    opaqueExecute: (string, string) -> Outcome)

  /** The platform together with the clipboard history as the polling loop
      has last left it. */
  datatype Env = Env(history: seq<string>, platform: Platform)

  /** `ICommandHandler`. `WebHandler` and `ExeHandler` declare neither a
      description nor `IsEntryless`; they get no description and are not
      entryless. `OpaqueHandler` stands for a handler whose code is not part
      of this model (`RunHandler`, `ScriptHandler`). */
  datatype Handler =
    | ClipboardHandler
    | SystemHandler
    | WebHandler
    | ExeHandler
    | SearchHandler
    | OpaqueHandler(prefix: string, description: Option<string>, entryless: bool)
  {
    function Prefix(): string {
      match this
      case ClipboardHandler => Clipboard.Prefix
      case SystemHandler => SystemCommands.Prefix
      case WebHandler => Web.Prefix
      case ExeHandler => Exe.Prefix
      case SearchHandler => Search.Prefix
      case OpaqueHandler(p, _, _) => p
    }

    function Description(): Option<string> {
      match this
      case ClipboardHandler => Some(Clipboard.Description)
      case SystemHandler => Some(SystemCommands.Description)
      case WebHandler => None
      case ExeHandler => None
      case SearchHandler => Some(Search.Description)
      case OpaqueHandler(_, d, _) => d
    }

    predicate IsEntryless() {
      match this
      case SearchHandler => Search.IsEntryless
      case OpaqueHandler(_, _, e) => e
      case _ => false
    }

    /** `GetOptions()`; plain strings are offered without descriptions. */
    function Options(env: Env): seq<Entry> {
      match this
      case ClipboardHandler => Clipboard.Options(env.history)
      case SystemHandler => SystemCommands.Options()
      case WebHandler => Web.Options()
      case ExeHandler => Exe.Options(env.platform.pathExecutables)
      case SearchHandler => Search.Options()
      case OpaqueHandler(p, _, _) => env.platform.opaqueOptions(p)
    }

    /** `Execute(key)`. */
    function Execute(key: string, env: Env): Outcome {
      match this
      case ClipboardHandler => Clipboard.Execute(env.history, key)
      case SystemHandler => SystemCommands.Execute(key, env.platform.onWindows, env.platform.start)
      case WebHandler => Web.Execute(key, env.platform.start)
      case ExeHandler => Exe.Execute(env.platform.pathExecutables, key, env.platform.start)
      case SearchHandler => Search.Execute(key, env.platform.escape, env.platform.start)
      case OpaqueHandler(p, _, _) => env.platform.opaqueExecute(p, key)
    }
  }

  /** Some option's value equals the key ignoring case. */
  predicate Offers(options: seq<Entry>, key: string) {
    exists i | 0 <= i < |options| :: EqualsIgnoreCase(options[i].value, key)
  }

  /** Some option's value is the key itself. */
  predicate OffersExactly(options: seq<Entry>, key: string) {
    exists i | 0 <= i < |options| :: options[i].value == key
  }

  /** Every handler of the model except an opaque one validates its key: a
      handler that is not entryless accepts only keys that its options
      contain ignoring case, and the web and clipboard handlers only keys
      spelled exactly as one of their options; the entryless search handler
      accepts any non-blank key. */
  lemma ExecuteValidatesKey(h: Handler, key: string, env: Env)
    requires !h.OpaqueHandler?
    requires h.Execute(key, env).Succeeded?
    ensures h.IsEntryless() ==> !IsBlank(key)
    ensures !h.IsEntryless() ==> Offers(h.Options(env), key)
    ensures h.ClipboardHandler? || h.WebHandler? ==> OffersExactly(h.Options(env), key)
  {
    match h
    case ClipboardHandler => ClipboardValidatesKey(key, env);
    case SystemHandler => SystemListsEveryAction(key);
    case WebHandler => WebValidatesKey(key, env);
    case ExeHandler => ExeValidatesKey(key, env);
    case SearchHandler =>
  }

  lemma ClipboardValidatesKey(key: string, env: Env)
    requires Clipboard.Execute(env.history, key).Succeeded?
    ensures OffersExactly(Clipboard.Options(env.history), key)
  {
    var i :| 0 <= i < |env.history| && env.history[i] == key;
    assert Clipboard.Options(env.history)[i].value == key;
  }

  lemma WebValidatesKey(key: string, env: Env)
    requires Web.Execute(key, env.platform.start).Succeeded?
    ensures OffersExactly(Web.Options(), key)
  {
    var i :| 0 <= i < |Web.Sites| && Web.Sites[i].0 == key;
    assert Web.Options()[i].value == key;
  }

  lemma ExeValidatesKey(key: string, env: Env)
    requires Exe.Execute(env.platform.pathExecutables, key, env.platform.start).Succeeded?
    ensures Offers(Exe.Options(env.platform.pathExecutables), key)
  {
    var found := env.platform.pathExecutables;
    Exe.ExecutablesKeepMembership(found, key);
    var i :| 0 <= i < |Exe.Executables(found)| && EqualsIgnoreCase(Exe.Executables(found)[i], key);
    assert Exe.Options(found)[i].value == Exe.Executables(found)[i];
  }

  /** A key the system table accepts is, ignoring case, one of its options. */
  lemma SystemListsEveryAction(key: string)
    requires SystemCommands.Lookup(key).Some?
    ensures Offers(SystemCommands.Options(), key)
  {
    SystemCommands.KeysAreLowerCommands();
    var i :| 0 <= i < |SystemCommands.PrimaryCommands| && SystemCommands.PrimaryCommands[i] == Lower(key);
    assert SystemCommands.Options()[i].value == Lower(key);
    assert EqualsIgnoreCase(SystemCommands.Options()[i].value, key);
  }

  /** Among the handlers of this model the search handler is the only
      entryless one, and it offers no options. */
  lemma SearchIsTheOnlyEntrylessHandler(h: Handler, env: Env)
    requires !h.OpaqueHandler?
    ensures h.IsEntryless() <==> h == SearchHandler
    ensures h.IsEntryless() ==> h.Options(env) == []
  {
  }
}

=== FILE: launcher.dfy ===
/** `ProcessLauncher`: the older stand-alone parser of `run <key>` commands. */
module ProcessLauncher {
  import opened Base
  import opened Text

  const ValidPrefixes: seq<string> := ["run"]

  /** `HandleRun(key)`: only "notepad" has a path. */
  function HandleRun(key: string, start: StartInfo -> StartResult): (r: Outcome)
    ensures key != "notepad" ==> r == Failed("Path not found")
    ensures key == "notepad" ==>
              var launched := start(StartInfo("notepad.exe", "", true));
              r == if launched.Started? then Succeeded else Failed(launched.message)
  {
    if key != "notepad" then Failed("Path not found")
    else
      match start(StartInfo("notepad.exe", "", true))
      case Started => Succeeded
      case Threw(m) => Failed(m)
  }

  /** `Launch(command)`: blank commands, commands that are not a prefix and a
      key, and prefixes other than "run" (ignoring case) are refused; the
      lower-cased key goes to `HandleRun`. The `default` branch of the
      source's switch cannot be reached once the prefix is validated. */
  function Launch(command: string, start: StartInfo -> StartResult): (r: Outcome)
    ensures IsBlank(command) ==> r == Failed("Empty command")
    ensures !IsBlank(command) && |SplitPrefixKey(command)| != 2 ==> r == Failed("Invalid part length")
    ensures !IsBlank(command) && |SplitPrefixKey(command)| == 2 ==>
              r == if Lower(SplitPrefixKey(command)[0]) != "run" then Failed("Invalid prefix")
                   else HandleRun(Lower(SplitPrefixKey(command)[1]), start)
  {
    if IsBlank(command) then Failed("Empty command")
    else
      var parts := SplitPrefixKey(command);
      if |parts| != 2 then Failed("Invalid part length")
      else
        var prefix := Lower(parts[0]);
        var key := Lower(parts[1]);
        if prefix !in ValidPrefixes then Failed("Invalid prefix")
        else if prefix == "run" then HandleRun(key, start)
        else assert false; Failed("invalid prefix")
  }

  /** A prefix, one space and a key: the prefix decides, ignoring case, and
      the key is lower-cased before it is looked up. */
  lemma LaunchOfCommand(p: string, k: string, start: StartInfo -> StartResult)
    requires |p| > 0 && ' ' !in p && !IsWhiteSpace(p[0])
    requires |k| > 0 && k[0] != ' '
    ensures Launch(p + " " + k, start)
            == if Lower(p) != "run" then Failed("Invalid prefix") else HandleRun(Lower(k), start)
  {
    assert Spaces(0) == "" && Spaces(1) == " ";
    assert p + " " + k == Spaces(0) + p + Spaces(1) + k;
    SplitPrefixKeyOfCommand(0, p, 1, k);
    assert !IsWhiteSpace((p + " " + k)[0]);
  }

  lemma RunIsSingleWord()
    ensures ' ' !in "run" && !IsWhiteSpace("run"[0]) && Lower("run") == "run"
  {
  }

  lemma LowerKeys()
    ensures Lower("NotePad") == "notepad" && Lower("notepad ") == "notepad "
  {
  }

  /** "run NotePad" starts notepad.exe: the key is lower-cased. */
  lemma LaunchIgnoresKeyCase(start: StartInfo -> StartResult)
    ensures Launch("run" + " " + "NotePad", start) == HandleRun("notepad", start)
  {
    RunIsSingleWord();
    LaunchOfCommand("run", "NotePad", start);
    LowerKeys();
  }

  /** "run notepad " keeps its trailing space in the key and so finds no path. */
  lemma LaunchKeepsTrailingSpace(start: StartInfo -> StartResult)
    ensures Launch("run" + " " + "notepad ", start) == Failed("Path not found")
  {
    RunIsSingleWord();
    LaunchOfCommand("run", "notepad ", start);
    LowerKeys();
  }
}

=== FILE: search.dfy ===
/** `SearchHandler`: the one entryless handler, which sends any non-blank
    text to a web search. */
module Search {
  import opened Base
  import opened Text

  const Prefix := "search"
  const Description := "search the web"
  const IsEntryless := true
  const SearchUrl := "https://www.google.com/search?q="

  /** `GetOptions`: nothing to choose from. */
  function Options(): seq<Entry> {
    []
  }

  /** `Execute(query)`: a blank query is refused; any other query is accepted
      as is, without consulting options, and the escaped query is appended to
      the search URL and opened through the shell. `escape` stands for
      `Uri.EscapeDataString`. */
  function Execute(query: string, escape: string -> string, start: StartInfo -> StartResult): (r: Outcome)
    ensures IsBlank(query) ==> r == Failed("Search query cannot be empty")
    ensures !IsBlank(query) ==>
              var launched := start(StartInfo(SearchUrl + escape(query), "", true));
              r == if launched.Started? then Succeeded
                   else Failed("Failed to open browser: " + launched.message)
  {
    if IsBlank(query) then Failed("Search query cannot be empty")
    else
      var searchUrl := SearchUrl + escape(query);
      match start(StartInfo(searchUrl, "", true))
      case Started => Succeeded
      case Threw(m) => Failed("Failed to open browser: " + m)
  }
}

=== FILE: subsequence.dfy ===
/** Order-preserving containment of one sequence in another, the reference
    the fuzzy matcher and the filters are measured against. */
module Subsequence {

  /** `a` occurs in `b` in order, not necessarily contiguously. This reference
      definition leaves open which occurrence each element is matched to. */
  predicate IsSubsequence<T(==)>(a: seq<T>, b: seq<T>)
    decreases |b|
  {
    if |a| == 0 then true
    else if |b| == 0 then false
    else (a[0] == b[0] && IsSubsequence(a[1..], b[1..])) || IsSubsequence(a, b[1..])
  }

  lemma {:induction false} SubsequenceDropHead<T>(a: seq<T>, b: seq<T>)
    requires |a| > 0 && IsSubsequence(a, b)
    ensures IsSubsequence(a[1..], b)
    decreases |b|
  {
    if !(a[0] == b[0] && IsSubsequence(a[1..], b[1..])) {
      SubsequenceDropHead(a, b[1..]);
    }
  }

  /** Matching equal heads at once loses nothing: the greedy choice is exact. */
  lemma GreedyStep<T>(a: seq<T>, b: seq<T>)
    requires |a| > 0 && |b| > 0 && a[0] == b[0]
    ensures IsSubsequence(a, b) <==> IsSubsequence(a[1..], b[1..])
  {
    if IsSubsequence(a, b[1..]) {
      SubsequenceDropHead(a, b[1..]);
    }
  }

  lemma {:induction false} PrefixIsSubsequence<T>(a: seq<T>, b: seq<T>)
    requires |a| <= |b| && b[..|a|] == a
    ensures IsSubsequence(a, b)
    decreases |a|
  {
    if |a| > 0 {
      assert b[1..][..|a| - 1] == a[1..];
      PrefixIsSubsequence(a[1..], b[1..]);
    }
  }

  lemma {:induction false} SubsequenceMembers<T>(a: seq<T>, b: seq<T>)
    requires IsSubsequence(a, b)
    ensures forall x | x in a :: x in b
    decreases |b|
  {
    if |a| > 0 {
      if a[0] == b[0] && IsSubsequence(a[1..], b[1..]) {
        SubsequenceMembers(a[1..], b[1..]);
        assert forall x | x in a :: x == a[0] || x in a[1..];
      } else {
        SubsequenceMembers(a, b[1..]);
      }
    }
  }
}

=== FILE: system.dfy ===
/** `SystemHandler`: a fixed, case-insensitive table of operating-system
    actions (lock, sleep, shutdown, ...), each of which starts processes on
    Windows and reports "not supported" elsewhere. */
module SystemCommands {
  import opened Base
  import opened Text

  const Prefix := "sys"
  const Description := "OS shortcuts and controls"

  datatype SystemAction =
    | LockScreen | Sleep | Shutdown | Restart | Mute
    | TaskManager | ControlPanel | DeviceManager | SystemSettings

  /** `_map`, in the order it is built; keys compare ignoring case. */
  const Table: seq<(string, SystemAction)> := [
    ("lock", LockScreen),
    ("sleep", Sleep),
    ("shutdown", Shutdown),
    ("restart", Restart),
    ("mute", Mute),
    ("tasks", TaskManager),
    ("cpanel", ControlPanel),
    ("devices", DeviceManager),
    ("settings", SystemSettings)
  ]

  /** The commands `GetOptions` lists, a separate array in the source. */
  const PrimaryCommands: seq<string> := [
    "lock", "sleep", "shutdown", "restart", "mute", "tasks", "cpanel", "devices", "settings"
  ]

  const Fallback := "system command"

  /** The action whose key equals `command` ignoring case, if any. */
  function LookupIn(table: seq<(string, SystemAction)>, command: string): (r: Option<SystemAction>)
    ensures r.None? <==> forall i | 0 <= i < |table| :: !EqualsIgnoreCase(table[i].0, command)
    ensures r.Some? ==> exists i | 0 <= i < |table| ::
              EqualsIgnoreCase(table[i].0, command) && table[i].1 == r.value
  {
    if |table| == 0 then None
    else if EqualsIgnoreCase(table[0].0, command) then Some(table[0].1)
    else
      var r := LookupIn(table[1..], command);
      assert forall i | 1 <= i < |table| :: table[i] == table[1..][i - 1];
      r
  }

  /** `_map.TryGetValue(command)`: since every key is lower case, a command
      resolves exactly when its lower-cased form is one of the listed
      commands, and then to the action listed under it. */
  function Lookup(command: string): (r: Option<SystemAction>)
    ensures r.Some? <==> Lower(command) in PrimaryCommands
    ensures forall i | 0 <= i < |Table| && Table[i].0 == Lower(command) :: r == Some(Table[i].1)
  {
    KeysAreLowerCommands();
    var r := LookupIn(Table, command);
    assert forall i | 0 <= i < |Table| :: EqualsIgnoreCase(Table[i].0, command) == (Table[i].0 == Lower(command));
    assert forall i, j | 0 <= i < j < |Table| :: Table[i].0 != Table[j].0;
    r
  }

  /** The table's keys are the listed commands, in the same order, and are
      already lower case. */
  lemma KeysAreLowerCommands()
    ensures |Table| == |PrimaryCommands|
    ensures forall i | 0 <= i < |Table| :: Table[i].0 == PrimaryCommands[i] && Lower(Table[i].0) == Table[i].0
  {
    assert Lower("lock") == "lock" && Lower("sleep") == "sleep" && Lower("shutdown") == "shutdown";
    assert Lower("restart") == "restart" && Lower("mute") == "mute" && Lower("tasks") == "tasks";
    assert Lower("cpanel") == "cpanel" && Lower("devices") == "devices" && Lower("settings") == "settings";
  }

  /** `GetDescription`: an exact (case-sensitive) switch with a fallback. */
  function GetDescription(command: string): (r: string)
    ensures r == Fallback <==> command !in PrimaryCommands
  {
    if command == "lock" then "lock the screen"
    else if command == "sleep" then "put computer to sleep"
    else if command == "shutdown" then "shutdown the computer"
    else if command == "restart" then "restart the computer"
    else if command == "mute" then "toggle mute"
    else if command == "tasks" then "open task manager"
    else if command == "cpanel" then "open control panel"
    else if command == "devices" then "open device manager"
    else if command == "settings" then "open system settings"
    else Fallback
  }

  /** `GetOptions`: the primary commands in order, each with its description. */
  function Options(): (r: seq<Entry>)
    ensures |r| == |PrimaryCommands|
    ensures forall i | 0 <= i < |r| :: r[i].value == PrimaryCommands[i]
  {
    seq(|PrimaryCommands|, i requires 0 <= i < |PrimaryCommands| =>
      Entry(PrimaryCommands[i], Some(GetDescription(PrimaryCommands[i]))))
  }

  /** The processes an action starts on Windows, in order. `Process.Start`
      with a file name (and arguments) does not use the shell. */
  function Starts(a: SystemAction): seq<StartInfo> {
    match a
    case LockScreen => [StartInfo("rundll32.exe", "user32.dll,LockWorkStation", false)]
    case Sleep => [StartInfo("powercfg", "/hibernate off", false),
                   StartInfo("rundll32.exe", "powrprof.dll,SetSuspendState 0,1,0", false)]
    case Shutdown => [StartInfo("shutdown", "/s /t 0", false)]
    case Restart => [StartInfo("shutdown", "/r /t 0", false)]
    case Mute => [StartInfo("powershell", "-Command \"(New-Object -ComObject WScript.Shell).SendKeys([char]173)\"", false)]
    case TaskManager => [StartInfo("taskmgr", "", false)]
    case ControlPanel => [StartInfo("control", "", false)]
    case DeviceManager => [StartInfo("devmgmt.msc", "", false)]
    case SystemSettings => [StartInfo("ms-settings:", "", false)]
  }

  const NotSupported := " not supported on this platform"

  /** The feature an action reports as unsupported off Windows. */
  function Feature(a: SystemAction): string {
    match a
    case LockScreen => "Lock screen"
    case Sleep => "Sleep"
    case Shutdown => "Shutdown"
    case Restart => "Restart"
    case Mute => "Mute"
    case TaskManager => "Task manager"
    case ControlPanel => "Control panel"
    case DeviceManager => "Device manager"
    case SystemSettings => "System settings"
  }

  /** Starting processes one after the other: the first exception stops the
      sequence and escapes. */
  function StartAll(starts: seq<StartInfo>, start: StartInfo -> StartResult): (r: StartResult)
    ensures r.Started? <==> forall i | 0 <= i < |starts| :: start(starts[i]).Started?
    ensures r.Threw? ==> exists i | 0 <= i < |starts| ::
              start(starts[i]) == r && forall j | 0 <= j < i :: start(starts[j]).Started?
  {
    if |starts| == 0 then Started
    else if start(starts[0]).Threw? then start(starts[0])
    else
      var r := StartAll(starts[1..], start);
      assert forall i | 1 <= i < |starts| :: starts[i] == starts[1..][i - 1];
      if r.Threw? then
        FirstThrowShifts(starts, start, r);
        r
      else r
  }

  /** A first throw in the tail, after a start that did not throw, is the
      first throw of the whole sequence. */
  lemma FirstThrowShifts(starts: seq<StartInfo>, start: StartInfo -> StartResult, r: StartResult)
    requires |starts| > 0 && start(starts[0]).Started?
    requires exists i | 0 <= i < |starts[1..]| ::
               start(starts[1..][i]) == r && forall j | 0 <= j < i :: start(starts[1..][j]).Started?
    ensures exists i | 0 <= i < |starts| ::
              start(starts[i]) == r && forall j | 0 <= j < i :: start(starts[j]).Started?
  {
    var k :| 0 <= k < |starts[1..]| &&
             start(starts[1..][k]) == r && forall j | 0 <= j < k :: start(starts[1..][j]).Started?;
    assert forall j | 1 <= j < k + 1 :: starts[j] == starts[1..][j - 1];
    assert start(starts[k + 1]) == r;
  }

  /** What an action method does: it returns an outcome, or an exception
      escapes from it. */
  datatype ActionResult = Returned(outcome: Outcome) | Raised(message: string)

  function Run(a: SystemAction, onWindows: bool, start: StartInfo -> StartResult): (r: ActionResult)
    ensures !onWindows ==> r == Returned(Failed(Feature(a) + NotSupported))
    ensures onWindows ==> r.Raised? || r == Returned(Succeeded)
    ensures onWindows ==> (r.Returned? <==> forall i | 0 <= i < |Starts(a)| :: start(Starts(a)[i]).Started?)
    ensures r.Raised? ==> exists i | 0 <= i < |Starts(a)| ::
              && start(Starts(a)[i]) == Threw(r.message)
              && forall j | 0 <= j < i :: start(Starts(a)[j]).Started?
  {
    if onWindows then
      match StartAll(Starts(a), start)
      case Started => Returned(Succeeded)
      case Threw(m) => Raised(m)
    else
      Returned(Failed(Feature(a) + NotSupported))
  }

  /** `Execute(command)`: blank commands are refused, the raw command is looked
      up ignoring case, and an exception escaping the action becomes a
      failure. The lower-cased, trimmed `action` and `parameter` the source
      computes are never used, so they do not appear here. */
  function Execute(command: string, onWindows: bool, start: StartInfo -> StartResult): (r: Outcome)
    ensures IsBlank(command) ==> r == Failed("System command cannot be empty")
    ensures !IsBlank(command) && Lookup(command).None? ==>
              r == Failed("Unknown system command: " + command)
    ensures !IsBlank(command) && Lookup(command).Some? && !onWindows ==>
              r == Failed(Feature(Lookup(command).value) + " not supported on this platform")
    ensures !IsBlank(command) && Lookup(command).Some? && onWindows ==>
              (r.Succeeded? <==> forall s | s in Starts(Lookup(command).value) :: start(s).Started?)
    ensures !IsBlank(command) && Lookup(command).Some? && onWindows && r.Failed? ==>
              var starts := Starts(Lookup(command).value);
              exists i | 0 <= i < |starts| ::
                && start(starts[i]).Threw?
                && r.message == "Failed to execute system command: " + start(starts[i]).message
                && forall j | 0 <= j < i :: start(starts[j]).Started?
  {
    if IsBlank(command) then Failed("System command cannot be empty")
    else
      match Lookup(command)
      case None => Failed("Unknown system command: " + command)
      case Some(a) =>
        match Run(a, onWindows, start)
        case Returned(o) => o
        case Raised(m) => Failed("Failed to execute system command: " + m)
  }

  /** Every listed option is a key of the table, and none of them falls back
      to the generic description. */
  lemma OptionsAreCommands()
    ensures forall i | 0 <= i < |PrimaryCommands| :: Lookup(PrimaryCommands[i]).Some?
    ensures forall e | e in Options() :: e.description.Some? && e.description.value != Fallback
  {
    PrimaryCommandsResolve();
    PrimaryCommandsDescribed();
  }

  lemma PrimaryCommandsResolve()
    ensures forall i | 0 <= i < |PrimaryCommands| :: Lookup(PrimaryCommands[i]).Some?
  {
    forall i | 0 <= i < |PrimaryCommands|
      ensures Lookup(PrimaryCommands[i]).Some?
    {
      assert EqualsIgnoreCase(Table[i].0, PrimaryCommands[i]);
    }
  }

  lemma PrimaryCommandsDescribed()
    ensures forall e | e in Options() :: e.description.Some? && e.description.value != Fallback
  {
    forall e | e in Options()
      ensures e.description.Some? && e.description.value != Fallback
    {
      var i :| 0 <= i < |Options()| && Options()[i] == e;
      assert e.description == Some(GetDescription(PrimaryCommands[i]));
    }
  }

  /** The raw command is what is looked up: another case of a key resolves,
      but a leading space does not. */
  lemma LookupUsesRawCommand()
    ensures Lookup("LOCK") == Some(LockScreen)
    ensures Lookup(" lock").None?
  {
    assert Lower("LOCK") == "lock";
    assert EqualsIgnoreCase(Table[0].0, "LOCK");
    forall i | 0 <= i < |Table|
      ensures !EqualsIgnoreCase(Table[i].0, " lock")
    {
      assert Lower(" lock")[0] == ' ';
      assert |Lower(Table[i].0)| == |Table[i].0|;
      if |Table[i].0| == |" lock"| {
        assert Lower(Table[i].0)[0] != ' ';
      }
    }
  }
}

=== FILE: text.dfy ===
/** The .NET string operations the launcher relies on: white-space tests and
    trimming, invariant lower-casing and case-insensitive comparison, and the
    three ways the code splits a command on spaces. */
module Text {
  import opened Base

  /** `char.IsWhiteSpace`: the Unicode space separators, line and paragraph
      separators, U+0009 to U+000D and U+0085. */
  predicate IsWhiteSpace(c: char) {
    || c == ' '
    || ('\t' <= c <= '\r')
    || c == '\U{0085}'
    || c == '\U{00A0}'
    || c == '\U{1680}'
    || ('\U{2000}' <= c <= '\U{200A}')
    || c == '\U{2028}'
    || c == '\U{2029}'
    || c == '\U{202F}'
    || c == '\U{205F}'
    || c == '\U{3000}'
  }

  /** `string.IsNullOrWhiteSpace` of a non-null string. */
  predicate IsBlank(s: string) {
    forall i | 0 <= i < |s| :: IsWhiteSpace(s[i])
  }

  /** The end of the run of white space that starts at `i`. */
  function WhiteRunFrom(s: string, i: nat): (r: nat)
    requires i <= |s|
    ensures i <= r <= |s|
    ensures forall k | i <= k < r :: IsWhiteSpace(s[k])
    ensures r < |s| ==> !IsWhiteSpace(s[r])
    decreases |s| - i
  {
    if i < |s| && IsWhiteSpace(s[i]) then WhiteRunFrom(s, i + 1) else i
  }

  /** The start of the run of white space that ends just before `j`. */
  function WhiteRunBefore(s: string, j: nat): (r: nat)
    requires j <= |s|
    ensures r <= j
    ensures forall k | r <= k < j :: IsWhiteSpace(s[k])
    ensures r > 0 ==> !IsWhiteSpace(s[r - 1])
  {
    if j > 0 && IsWhiteSpace(s[j - 1]) then WhiteRunBefore(s, j - 1) else j
  }

  /** `TrimStart()`: drops exactly the leading run of white space. */
  function TrimStart(s: string): (r: string)
    ensures |r| <= |s| && r == s[|s| - |r|..]
    ensures forall i | 0 <= i < |s| - |r| :: IsWhiteSpace(s[i])
    ensures |r| > 0 ==> !IsWhiteSpace(r[0])
  {
    s[WhiteRunFrom(s, 0)..]
  }

  /** `TrimEnd()`: drops exactly the trailing run of white space. */
  function TrimEnd(s: string): (r: string)
    ensures |r| <= |s| && r == s[..|r|]
    ensures forall i | |r| <= i < |s| :: IsWhiteSpace(s[i])
    ensures |r| > 0 ==> !IsWhiteSpace(r[|r| - 1])
  {
    s[..WhiteRunBefore(s, |s|)]
  }

  /** `Trim()`: empty exactly when the string is blank, and otherwise neither
      starting nor ending with white space. */
  function Trim(s: string): (r: string)
    ensures |r| == 0 <==> IsBlank(s)
    ensures |r| > 0 ==> !IsWhiteSpace(r[0]) && !IsWhiteSpace(r[|r| - 1])
    ensures exists i, j | 0 <= i <= j <= |s| :: r == s[i..j] && TrimmedAround(s, i, j)
  {
    TrimFacts(s);
    TrimEnd(TrimStart(s))
  }

  /** Trimming neither makes a text blank nor makes a blank text non-blank. */
  lemma TrimKeepsBlankness(s: string)
    ensures IsBlank(Trim(s)) <==> IsBlank(s)
  {
    var t := Trim(s);
    if |t| > 0 { assert !IsWhiteSpace(t[0]); }
  }

  /** Everything of `s` before `i` and from `j` on is white space. */
  predicate TrimmedAround(s: string, i: nat, j: nat)
    requires i <= j <= |s|
  {
    && (forall k | 0 <= k < i :: IsWhiteSpace(s[k]))
    && (forall k | j <= k < |s| :: IsWhiteSpace(s[k]))
  }

  /** Cutting white space off the front of `s` and then off the back of the
      rest leaves a slice of `s` with only white space around it. */
  lemma CutsAreSlice(s: string, t: string, r: string)
    requires |t| <= |s| && t == s[|s| - |t|..]
    requires forall i | 0 <= i < |s| - |t| :: IsWhiteSpace(s[i])
    requires |r| <= |t| && r == t[..|r|]
    requires forall i | |r| <= i < |t| :: IsWhiteSpace(t[i])
    ensures var k := |s| - |t|;
      r == s[k..k + |r|] && TrimmedAround(s, k, k + |r|)
  {
    var k := |s| - |t|;
    forall m | k + |r| <= m < |s| ensures IsWhiteSpace(s[m]) {
      assert s[m] == t[m - k];
    }
  }

  /** Trimming cuts white space off both ends of `s` and nothing else. */
  lemma TrimIsSlice(s: string)
    ensures var t := TrimStart(s);
      var r := TrimEnd(t);
      var k := |s| - |t|;
      k + |r| <= |s| && r == s[k..k + |r|] && TrimmedAround(s, k, k + |r|)
  {
    CutsAreSlice(s, TrimStart(s), TrimEnd(TrimStart(s)));
  }

  lemma TrimFacts(s: string)
    ensures var r := TrimEnd(TrimStart(s));
      && (|r| == 0 <==> IsBlank(s))
      && (|r| > 0 ==> !IsWhiteSpace(r[0]) && !IsWhiteSpace(r[|r| - 1]))
      && exists i, j | 0 <= i <= j <= |s| :: r == s[i..j] && TrimmedAround(s, i, j)
  {
    var t := TrimStart(s);
    var r := TrimEnd(t);
    var k := |s| - |t|;
    TrimIsSlice(s);
    if |r| == 0 {
      assert |t| == 0;
    } else {
      assert s[k] == t[0] == r[0];
    }
    assert TrimmedAround(s, k, k + |r|);
  }

  /** `char.ToLowerInvariant`, restricted to the ASCII letters. */
  function LowerChar(c: char): char {
    if 'A' <= c <= 'Z' then (c as int + 32) as char else c
  }

  /** `string.ToLowerInvariant`. */
  function Lower(s: string): (r: string)
    ensures |r| == |s|
    ensures forall i | 0 <= i < |s| :: r[i] == LowerChar(s[i])
  {
    seq(|s|, i requires 0 <= i < |s| => LowerChar(s[i]))
  }

  lemma LowerIdempotent(s: string)
    ensures Lower(Lower(s)) == Lower(s)
  {
  }

  lemma LowerAppend(a: string, b: string)
    ensures Lower(a + b) == Lower(a) + Lower(b)
  {
  }

  lemma LowerPrefix(s: string, n: nat)
    requires n <= |s|
    ensures Lower(s[..n]) == Lower(s)[..n]
  {
  }

  /** `StringComparison.OrdinalIgnoreCase` equality. */
  predicate EqualsIgnoreCase(a: string, b: string) {
    Lower(a) == Lower(b)
  }

  /** `s.StartsWith(p, StringComparison.OrdinalIgnoreCase)`. */
  predicate StartsWithIgnoreCase(s: string, p: string) {
    |p| <= |s| && EqualsIgnoreCase(s[..|p|], p)
  }

  /** `names.Contains(key, StringComparer.OrdinalIgnoreCase)`. */
  predicate ContainsIgnoreCase(names: seq<string>, key: string) {
    exists i | 0 <= i < |names| :: EqualsIgnoreCase(names[i], key)
  }

  /** The index of the first name equal to `key` ignoring case, or `|names|`
      when there is none. */
  function IndexOfIgnoreCase(names: seq<string>, key: string): (r: nat)
    ensures r <= |names|
    ensures r < |names| <==> ContainsIgnoreCase(names, key)
    ensures r < |names| ==> EqualsIgnoreCase(names[r], key)
    ensures forall i | 0 <= i < r :: !EqualsIgnoreCase(names[i], key)
    decreases |names|
  {
    if |names| == 0 then 0
    else if EqualsIgnoreCase(names[0], key) then 0
    else
      var r := 1 + IndexOfIgnoreCase(names[1..], key);
      assert forall i | 1 <= i < |names| :: names[i] == names[1..][i - 1];
      r
  }

  /** The text of `n` spaces. */
  function Spaces(n: nat): (r: string)
    ensures |r| == n && forall i | 0 <= i < n :: r[i] == ' '
  {
    seq(n, _ => ' ')
  }

  /** The index of the first space, if there is one. */
  function IndexOfSpace(s: string): (r: Option<nat>)
    ensures r.None? <==> ' ' !in s
    ensures r.Some? ==> r.value < |s| && s[r.value] == ' ' && ' ' !in s[..r.value]
  {
    if |s| == 0 then None
    else if s[0] == ' ' then Some(0)
    else
      match IndexOfSpace(s[1..])
      case None => None
      case Some(i) =>
        assert s[..i + 1] == [s[0]] + s[1..][..i];
        Some(i + 1)
  }

  /** `s.Split(' ', 2)` without options: the whole text when it holds no
      space, otherwise the text before and the text after the first space. */
  function SplitFirst(s: string): (parts: seq<string>)
    ensures 1 <= |parts| <= 2
    ensures |parts| == 1 <==> ' ' !in s
    ensures |parts| == 1 ==> parts[0] == s
    ensures |parts| == 2 ==> s == parts[0] + " " + parts[1] && ' ' !in parts[0]
  {
    match IndexOfSpace(s)
    case None => [s]
    case Some(i) =>
      assert s == s[..i] + " " + s[i + 1..];
      [s[..i], s[i + 1..]]
  }

  /** A word without spaces, a space and any rest split at that space. */
  lemma SplitFirstAfterWord(p: string, rest: string)
    requires ' ' !in p
    ensures SplitFirst(p + " " + rest) == [p, rest]
  {
    assert p + " " + rest == p + (" " + rest);
    IndexOfSpaceAfterWord(p, " " + rest);
    assert (p + " " + rest)[..|p|] == p;
    assert (p + " " + rest)[|p| + 1..] == rest;
  }

  /** `string.Join(" ", parts)`. */
  function JoinWithSpace(parts: seq<string>): string {
    if |parts| == 0 then ""
    else if |parts| == 1 then parts[0]
    else parts[0] + " " + JoinWithSpace(parts[1..])
  }

  /** `s.Split(' ')`: every piece between spaces, empty pieces included. */
  function SplitAll(s: string): (parts: seq<string>)
    ensures |parts| >= 1
    ensures forall i | 0 <= i < |parts| :: ' ' !in parts[i]
    ensures JoinWithSpace(parts) == s
    decreases |s|
  {
    match IndexOfSpace(s)
    case None => [s]
    case Some(i) =>
      var rest := SplitAll(s[i + 1..]);
      var parts := [s[..i]] + rest;
      assert parts[1..] == rest;
      assert s == s[..i] + " " + s[i + 1..];
      parts
  }

  /** Joining the pieces after the first of `s.Split(' ')` gives back exactly
      the text after the first space, so the two splits of the view model
      agree on the argument. */
  lemma {:induction false} JoinAfterFirstPiece(s: string)
    requires ' ' in s
    ensures JoinWithSpace(SplitAll(s)[1..]) == SplitFirst(s)[1]
  {
    var i := IndexOfSpace(s).value;
    assert SplitAll(s)[1..] == SplitAll(s[i + 1..]);
  }

  /** A space-free word, a space and any rest: `Split(' ')` yields at least
      two pieces, and the pieces after the first join back to the rest. */
  lemma ArgumentAfterWord(p: string, rest: string)
    requires ' ' !in p
    ensures |SplitAll(p + " " + rest)| >= 2
    ensures JoinWithSpace(SplitAll(p + " " + rest)[1..]) == rest
  {
    var s := p + " " + rest;
    var parts := SplitAll(s);
    assert s[|p|] == ' ';
    SplitFirstAfterWord(p, rest);
    JoinAfterFirstPiece(s);
  }

  /** Leading separator spaces dropped (only U+0020, not other white space). */
  function SkipSpaces(s: string): (r: string)
    ensures |r| <= |s| && r == s[|s| - |r|..]
    ensures |r| > 0 ==> r[0] != ' '
    ensures forall i | 0 <= i < |s| - |r| :: s[i] == ' '
    decreases |s|
  {
    if |s| > 0 && s[0] == ' ' then SkipSpaces(s[1..]) else s
  }

  /** `s.Split(' ', 2, StringSplitOptions.RemoveEmptyEntries)`: empty pieces
      before the first word are dropped, the first word is the first part,
      the spaces after it are skipped, and whatever follows, trailing spaces
      included, is the second part unless it is empty. */
  function SplitPrefixKey(s: string): (parts: seq<string>)
    ensures |parts| <= 2
    ensures forall i | 0 <= i < |parts| :: |parts[i]| > 0
    ensures |parts| >= 1 ==> ' ' !in parts[0]
    ensures |parts| == 2 ==> parts[1][0] != ' '
  {
    SplitWords(SkipSpaces(s))
  }

  /** The split of a text that no longer starts with a space. */
  function SplitWords(t: string): (parts: seq<string>)
    requires |t| == 0 || t[0] != ' '
    ensures |parts| <= 2
    ensures forall i | 0 <= i < |parts| :: |parts[i]| > 0
    ensures |parts| >= 1 ==> ' ' !in parts[0]
    ensures |parts| == 2 ==> parts[1][0] != ' '
  {
    if |t| == 0 then []
    else
      match IndexOfSpace(t)
      case None => [t]
      case Some(i) =>
        var key := SkipSpaces(t[i + 1..]);
        if |key| == 0 then [t[..i]] else [t[..i], key]
  }

  lemma {:induction false} SkipSpacesAfter(n: nat, s: string)
    requires |s| == 0 || s[0] != ' '
    ensures SkipSpaces(Spaces(n) + s) == s
    decreases n
  {
    if n > 0 {
      assert (Spaces(n) + s)[1..] == Spaces(n - 1) + s;
      SkipSpacesAfter(n - 1, s);
    } else {
      assert Spaces(n) + s == s;
    }
  }

  lemma {:induction false} IndexOfSpaceAfterWord(p: string, rest: string)
    requires ' ' !in p && |rest| > 0 && rest[0] == ' '
    ensures IndexOfSpace(p + rest) == Some(|p|)
    decreases |p|
  {
    if |p| > 0 {
      assert (p + rest)[1..] == p[1..] + rest;
      IndexOfSpaceAfterWord(p[1..], rest);
    }
  }

  lemma SplitWordsAtSpace(p: string, rest: string)
    requires |p| > 0 && ' ' !in p && |rest| > 0 && rest[0] == ' '
    ensures var key := SkipSpaces(rest[1..]);
      SplitWords(p + rest) == if |key| == 0 then [p] else [p, key]
  {
    IndexOfSpaceAfterWord(p, rest);
    var t := p + rest;
    assert t[..|p|] == p;
    assert t[|p| + 1..] == rest[1..];
  }

  /** A command written as a word, at least one space and a key that does not
      start with a space splits into that word and that key. */
  lemma SplitPrefixKeyOfCommand(n: nat, p: string, m: nat, k: string)
    requires |p| > 0 && ' ' !in p
    requires m >= 1 && |k| > 0 && k[0] != ' '
    ensures SplitPrefixKey(Spaces(n) + p + Spaces(m) + k) == [p, k]
  {
    var rest := Spaces(m) + k;
    var t := p + rest;
    assert Spaces(n) + p + Spaces(m) + k == Spaces(n) + t;
    SkipSpacesAfter(n, t);
    assert rest[1..] == Spaces(m - 1) + k;
    SkipSpacesAfter(m - 1, k);
    SplitWordsAtSpace(p, rest);
  }

  /** A single word surrounded by spaces splits into that word alone: the key
      part is missing. */
  lemma SplitPrefixKeyOfWord(n: nat, p: string, m: nat)
    requires |p| > 0 && ' ' !in p
    ensures SplitPrefixKey(Spaces(n) + p + Spaces(m)) == [p]
  {
    var t := p + Spaces(m);
    assert Spaces(n) + p + Spaces(m) == Spaces(n) + t;
    SkipSpacesAfter(n, t);
    if m == 0 {
      assert t == p;
    } else {
      assert Spaces(m)[1..] == Spaces(m - 1) + "";
      SkipSpacesAfter(m - 1, "");
      SplitWordsAtSpace(p, Spaces(m));
    }
  }
}

=== FILE: viewmodel.dfy ===
/** `ScryWindowViewModel`: the two-phase resolution of what the user types.
    In the prefix phase there is no current handler and the list offers the
    registered prefixes; once a prefix is chosen the list offers that
    handler's options, filtered by what follows the prefix. Every assignment
    to the command text re-runs the text-change handling, except the two
    that the source wraps in `_suppressChange`. */
module ViewModel {
  import opened Base
  import opened Text
  import opened Handlers
  import Fuzzy
  import Executor

  /** What the view model is built over: the executor's registry and the
      world its handlers consult. */
  datatype Context = Context(reg: Executor.Registry, env: Env)

  /** The observable state. `CancelRequested` and `CaretMoveRequested` are
      counted; `SelectedItem` is bound by the list control and so is read off
      `items` and `selectedIndex` (see `SelectedItem`). */
  datatype State = State(
    commandText: string,
    handler: Option<Handler>,
    items: seq<Entry>,
    selectedIndex: int,
    errorMessage: Option<string>,
    executeReady: bool,
    cancelRequests: nat,
    caretMoves: nat)

  const InvalidCommand := "Invalid command"
  const CouldNotExecute := "Could not execute: "

  /** The selection never drops below "none" and the handler is one of the
      registry's. */
  predicate Tracked(s: State, reg: Executor.Registry) {
    && s.selectedIndex >= -1
    && (s.handler.Some? ==> s.handler.value in reg)
  }

  /** What the view model keeps true between user actions: a current handler
      is a registered one whose prefix and a space still begin the text
      (ignoring case), and the command is only marked ready once a handler
      is chosen. */
  predicate Consistent(s: State, reg: Executor.Registry) {
    && Tracked(s, reg)
    && (s.handler.Some? ==> StartsWithIgnoreCase(s.commandText, s.handler.value.Prefix() + " "))
    && (s.executeReady ==> s.handler.Some?)
  }

  /** `ActivePhase`: which of the two phases the list is in. */
  function ActivePhase(s: State): (r: string)
    ensures r == "action" || r == "argument"
    ensures r == "argument" <==> s.handler.Some?
  {
    if s.handler.None? then "action" else "argument"
  }

  /** The state the constructor leaves: empty text, no handler, the
      registered prefixes listed. */
  function Initial(ctx: Context): (s: State)
    ensures Consistent(s, ctx.reg)
    ensures s.handler.None? && s.items == Executor.ListEntries(ctx.reg)
  {
    State("", None, Executor.ListEntries(ctx.reg), 0, None, false, 0, 0)
  }

  /** `SelectedItem` as the list control binds it: the item at the selected
      index, or none when the index is outside the list. */
  function SelectedItem(s: State): (r: Option<Entry>)
    ensures r.Some? <==> 0 <= s.selectedIndex < |s.items|
    ensures r.Some? ==> r.value == s.items[s.selectedIndex]
  {
    if 0 <= s.selectedIndex < |s.items| then Some(s.items[s.selectedIndex]) else None
  }

  /** `MoveUp`: one step up while not at the top; nothing else changes. */
  function MoveUp(s: State): (r: State)
    ensures s.selectedIndex > 0 ==> r == s.(selectedIndex := s.selectedIndex - 1)
    ensures s.selectedIndex <= 0 ==> r == s
  {
    if s.selectedIndex > 0 then s.(selectedIndex := s.selectedIndex - 1) else s
  }

  /** `MoveDown`: one step down while not at the last item; nothing else
      changes. */
  function MoveDown(s: State): (r: State)
    ensures s.selectedIndex < |s.items| - 1 ==> r == s.(selectedIndex := s.selectedIndex + 1)
    ensures s.selectedIndex >= |s.items| - 1 ==> r == s
  {
    if s.selectedIndex < |s.items| - 1 then s.(selectedIndex := s.selectedIndex + 1) else s
  }

  /** Down then up returns to the same state from any item but the last;
      up then down from any item but the first. */
  lemma MovesUndoEachOther(s: State)
    ensures 0 <= s.selectedIndex < |s.items| - 1 ==> MoveUp(MoveDown(s)) == s
    ensures 0 < s.selectedIndex < |s.items| ==> MoveDown(MoveUp(s)) == s
  {
  }

  /** The moves keep a selection inside the list, and moving down from
      "none" or from an item selects an item of a non-empty list. */
  lemma MovesKeepSelection(s: State)
    requires -1 <= s.selectedIndex < |s.items|
    ensures SelectedItem(s).Some? ==> SelectedItem(MoveUp(s)).Some? && SelectedItem(MoveDown(s)).Some?
    ensures |s.items| > 0 ==> SelectedItem(MoveDown(s)).Some?
  {
  }

  /** `ResetHandlerIfNeeded`: the handler survives only while the text still
      starts with its prefix and a space, ignoring case. */
  function KeptHandler(handler: Option<Handler>, text: string): (r: Option<Handler>)
    ensures r.Some? <==> handler.Some? && StartsWithIgnoreCase(text, handler.value.Prefix() + " ")
    ensures r.Some? ==> r == handler
  {
    match handler
    case Some(h) => if StartsWithIgnoreCase(text, h.Prefix() + " ") then handler else None
    case None => None
  }

  /** `CheckIfExecutable(parts)`: without a handler or a second part it is
      false; otherwise the trimmed argument (the parts after the first, joined
      by spaces) must be non-blank for an entryless handler and equal one of
      the handler's options ignoring case for any other. */
  function CheckIfExecutable(handler: Option<Handler>, parts: seq<string>, ctx: Context): (r: bool)
    ensures r ==> handler.Some? && |parts| >= 2
    ensures handler.Some? && handler.value in ctx.reg && |parts| >= 2 ==>
              r == Accepts(handler.value, JoinWithSpace(parts[1..]), ctx.env)
  {
    if |parts| < 2 || handler.None? then false
    else
      var argument := Trim(JoinWithSpace(parts[1..]));
      var h := handler.value;
      TrimKeepsBlankness(JoinWithSpace(parts[1..]));
      Executor.OwnOptions(ctx.reg, h, ctx.env);
      if h.IsEntryless() then !IsBlank(argument)
      else exists o | o in Executor.GetOptions(ctx.reg, h.Prefix(), ctx.env) :: EqualsIgnoreCase(o.value, argument)
  }

  /** A handler's own notion of a complete argument: any non-blank text for
      an entryless handler, otherwise one of its options ignoring case and
      surrounding white space. */
  predicate Accepts(h: Handler, argument: string, env: Env) {
    if h.IsEntryless() then !IsBlank(argument)
    else exists o | o in h.Options(env) :: EqualsIgnoreCase(o.value, Trim(argument))
  }

  /** `SetCurrentHandler`: the text becomes the lower-cased prefix and a
      space without re-running the text-change handling, the caret is moved,
      the handler's options are loaded and the selection moves down. */
  function SetCurrentHandler(s: State, h: Handler, ctx: Context): (r: State)
    ensures r.handler == Some(h) && r.commandText == Lower(h.Prefix()) + " "
    ensures ActivePhase(r) == "argument"
    ensures KeptHandler(r.handler, r.commandText) == Some(h)
    ensures h in ctx.reg ==> r.items == h.Options(ctx.env)
    ensures r.caretMoves == s.caretMoves + 1
    ensures r.executeReady == s.executeReady && r.errorMessage == s.errorMessage
    ensures r.cancelRequests == s.cancelRequests
  {
    LoweredPrefixBegins(Some(h));
    Executor.OwnOptions(ctx.reg, h, ctx.env);
    var loaded := s.(handler := Some(h), commandText := Lower(h.Prefix()) + " ",
                     caretMoves := s.caretMoves + 1,
                     items := Executor.GetOptions(ctx.reg, h.Prefix(), ctx.env));
    MoveDown(loaded)
  }

  /** `HandleArgumentFiltering`. */
  function HandleArgumentFiltering(s: State, parts: seq<string>, ctx: Context): (r: State)
    requires s.handler.Some?
    ensures r.(items := s.items, selectedIndex := s.selectedIndex) == s
    ensures s.handler.value.IsEntryless() ==> r.items == [] && r.selectedIndex == s.selectedIndex
    ensures !s.handler.value.IsEntryless() ==>
              var options := Executor.GetOptions(ctx.reg, s.handler.value.Prefix(), ctx.env);
              r.items == Fuzzy.FilterMatches(options, if |parts| > 1 then parts[1] else "")
  {
    var remainder := if |parts| > 1 then parts[1] else "";
    var h := s.handler.value;
    if h.IsEntryless() then s.(items := [])
    else
      var options := Executor.GetOptions(ctx.reg, h.Prefix(), ctx.env);
      MoveDown(s.(items := Fuzzy.FilterMatches(options, remainder)))
  }

  /** `HandlePrefixFiltering`, with `TrySetPrefixFromText`. */
  function HandlePrefixFiltering(s: State, parts: seq<string>, ctx: Context): (r: State)
    requires |parts| >= 1
    ensures var found := Executor.TryGetHandler(ctx.reg, parts[0]);
      && (|parts| == 1 && found.Some? ==>
            && r.handler == found && KeptHandler(r.handler, r.commandText) == found
            && r.items == found.value.Options(ctx.env) && r.caretMoves == s.caretMoves + 1)
      && (|parts| != 1 || found.None? ==>
            && r.(items := s.items, selectedIndex := s.selectedIndex) == s
            && r.items == Fuzzy.FilterMatches(Executor.ListEntries(ctx.reg), parts[0]))
    ensures r.executeReady == s.executeReady && r.errorMessage == s.errorMessage
    ensures r.cancelRequests == s.cancelRequests
  {
    var found := Executor.TryGetHandler(ctx.reg, parts[0]);
    if |parts| == 1 && found.Some? then SetCurrentHandler(s, found.value, ctx)
    else MoveDown(s.(items := Fuzzy.FilterMatches(Executor.ListEntries(ctx.reg), parts[0])))
  }

  /** `OnCommandTextChanged`, run on a state whose text has just been
      assigned. */
  function TextChanged(s: State, ctx: Context): (r: State)
    ensures Tracked(s, ctx.reg) ==> Consistent(r, ctx.reg)
    ensures r.errorMessage.None? && r.cancelRequests == s.cancelRequests
    ensures KeptHandler(s.handler, s.commandText).Some? ==>
              r.handler == s.handler && r.commandText == s.commandText && r.caretMoves == s.caretMoves
  {
    var kept := KeptHandler(s.handler, s.commandText);
    var parts := SplitFirst(s.commandText);
    var s1 := s.(errorMessage := None, handler := kept,
                 executeReady := CheckIfExecutable(kept, parts, ctx));
    if kept.Some? then HandleArgumentFiltering(s1, parts, ctx)
    else
      var r := HandlePrefixFiltering(s1, parts, ctx);
      LoweredPrefixBegins(r.handler);
      r
  }

  /** The text a handler selected from the prefix list leaves behind starts
      with that handler's prefix and a space. */
  lemma LoweredPrefixBegins(h: Option<Handler>)
    ensures h.Some? ==> StartsWithIgnoreCase(Lower(h.value.Prefix()) + " ", h.value.Prefix() + " ")
  {
    if h.Some? {
      var p := h.value.Prefix();
      LowerAppend(p, " ");
      LowerAppend(Lower(p), " ");
      LowerIdempotent(p);
      assert (Lower(p) + " ")[..|p + " "|] == Lower(p) + " ";
    }
  }

  /** Assigning the command text: the text-change handling runs only when
      the value actually changes. */
  function SetCommandText(s: State, text: string, ctx: Context): (r: State)
    ensures text == s.commandText ==> r == s
    ensures text != s.commandText ==> r.errorMessage.None?
    ensures KeptHandler(s.handler, text).Some? ==>
              r.commandText == text && r.handler == s.handler && r.caretMoves == s.caretMoves
    ensures Tracked(s, ctx.reg) && (text == s.commandText ==> Consistent(s, ctx.reg)) ==> Consistent(r, ctx.reg)
    ensures r.cancelRequests == s.cancelRequests
  {
    if text == s.commandText then s else TextChanged(s.(commandText := text), ctx)
  }

  function Cancel(s: State): (r: State)
    ensures r == s.(cancelRequests := s.cancelRequests + 1)
  {
    s.(cancelRequests := s.cancelRequests + 1)
  }

  /** `Execute`: the whole text goes to the executor. On failure only the
      error message changes; on success the text is cleared (which returns
      to the prefix phase with every prefix listed), the error and the ready
      flag are cleared and cancellation is requested once. */
  function Execute(s: State, ctx: Context): (r: State)
    ensures var out := Executor.Execute(ctx.reg, s.commandText, ctx.env);
      && (out.Failed? ==> r == s.(errorMessage := Some(CouldNotExecute + out.message)))
      && (out.Succeeded? ==>
            && r.commandText == "" && r.handler.None? && r.errorMessage.None? && !r.executeReady
            && ActivePhase(r) == "action"
            && r.items == Executor.ListEntries(ctx.reg)
            && r.cancelRequests == s.cancelRequests + 1)
    ensures Consistent(s, ctx.reg) ==> Consistent(r, ctx.reg)
  {
    match Executor.Execute(ctx.reg, s.commandText, ctx.env)
    case Failed(m) => s.(errorMessage := Some(CouldNotExecute + m))
    case Succeeded =>
      var cleared := SetCommandText(s, "", ctx);
      ClearedTextListsPrefixes(s, ctx);
      Cancel(cleared.(errorMessage := None, executeReady := false))
  }

  /** `r` is what executing `text` from `s` leaves: on success the text and
      the handler are cleared and the window is asked to hide; on failure the
      text and the handler stay and the failure message is shown. */
  predicate ExecutedText(s: State, r: State, text: string, ctx: Context) {
    var out := Executor.Execute(ctx.reg, text, ctx.env);
    && (out.Succeeded? ==>
          r.commandText == "" && r.handler.None? && r.cancelRequests == s.cancelRequests + 1)
    && (out.Failed? ==>
          && r.commandText == text && r.handler == s.handler
          && r.errorMessage == Some(CouldNotExecute + out.message)
          && r.cancelRequests == s.cancelRequests)
  }

  /** Clearing a non-empty text drops the handler and lists every prefix. */
  lemma ClearedTextListsPrefixes(s: State, ctx: Context)
    requires s.commandText != ""
    ensures var r := SetCommandText(s, "", ctx);
      r.commandText == "" && r.handler.None? && r.items == Executor.ListEntries(ctx.reg)
  {
    var t := s.(commandText := "");
    assert SplitFirst("") == [""];
    assert Executor.TryGetHandler(ctx.reg, "").None?;
    Fuzzy.FilterEmptyQuery(Executor.ListEntries(ctx.reg));
  }

  /** `CompletePrefixSelection`. */
  function CompletePrefixSelection(s: State, e: Entry, ctx: Context): (r: State)
    requires s.handler.None?
    ensures Executor.TryGetHandler(ctx.reg, Lower(e.value)).None? ==> ExecutedText(s, r, e.value, ctx)
    ensures Consistent(s, ctx.reg) ==> Consistent(r, ctx.reg)
  {
    match Executor.TryGetHandler(ctx.reg, Lower(e.value))
    case Some(h) => SetCurrentHandler(s, h, ctx)
    case None =>
      UnknownWordStays(s, e.value, ctx);
      Execute(SetCommandText(s, e.value, ctx), ctx)
  }

  /** `CompleteAndExecuteArgument`. */
  function CompleteAndExecuteArgument(s: State, e: Entry, ctx: Context): (r: State)
    requires s.handler.Some?
    ensures ExecutedText(s, r, s.handler.value.Prefix() + " " + e.value, ctx)
    ensures Consistent(s, ctx.reg) ==> Consistent(r, ctx.reg)
  {
    CompletedTextKeepsHandler(s.handler.value, e.value);
    Execute(SetCommandText(s, s.handler.value.Prefix() + " " + e.value, ctx), ctx)
  }

  /** `EnterPressed`. */
  function Enter(s: State, ctx: Context): (r: State)
    ensures s.executeReady ==> r == Execute(s, ctx)
    ensures s.handler.Some? && s.handler.value.IsEntryless() && !IsBlank(s.commandText) ==>
              r == Execute(s, ctx)
    ensures (&& !s.executeReady
             && !(s.handler.Some? && s.handler.value.IsEntryless() && !IsBlank(s.commandText))
             && SelectedItem(s).None?)
            ==> r == s.(errorMessage := Some(InvalidCommand))
    ensures Consistent(s, ctx.reg) ==> Consistent(r, ctx.reg)
  {
    if s.executeReady then Execute(s, ctx)
    else if s.handler.Some? && s.handler.value.IsEntryless() && !IsBlank(Trim(s.commandText)) then
      Execute(s, ctx)
    else
      match SelectedItem(s)
      case None => s.(errorMessage := Some(InvalidCommand))
      case Some(e) =>
        if s.handler.None? then CompletePrefixSelection(s, e, ctx)
        else CompleteAndExecuteArgument(s, e, ctx)
  }

  /** `CompleteArgument`. */
  function CompleteArgument(s: State, e: Entry, ctx: Context): (r: State)
    requires s.handler.Some?
    ensures r.commandText == s.handler.value.Prefix() + " " + e.value && r.handler == s.handler
    ensures r.items == [] && r.executeReady
    ensures r.caretMoves == s.caretMoves + 1 && r.cancelRequests == s.cancelRequests
  {
    CompletedTextKeepsHandler(s.handler.value, e.value);
    var t := SetCommandText(s, s.handler.value.Prefix() + " " + e.value, ctx);
    t.(caretMoves := t.caretMoves + 1, items := [], executeReady := true)
  }

  /** `TabPressed`, with `SetPrefix`. */
  function Tab(s: State, ctx: Context): (r: State)
    ensures SelectedItem(s).None? ==> r == s
    ensures s.handler.None? && SelectedItem(s).Some? ==>
              match Executor.TryGetHandler(ctx.reg, Lower(SelectedItem(s).value.value))
              case None => r == s
              case Some(h) =>
                && r.handler == Some(h) && r.commandText == Lower(h.Prefix()) + " "
                && r.items == h.Options(ctx.env) && r.caretMoves == s.caretMoves + 1
    ensures s.handler.Some? && SelectedItem(s).Some? ==>
              && r.commandText == s.handler.value.Prefix() + " " + SelectedItem(s).value.value
              && r.handler == s.handler && r.items == [] && r.executeReady
              && r.cancelRequests == s.cancelRequests
    ensures Consistent(s, ctx.reg) ==> Consistent(r, ctx.reg)
  {
    match SelectedItem(s)
    case None => s
    case Some(e) =>
      if s.handler.None? then
        match Executor.TryGetHandler(ctx.reg, Lower(e.value))
        case Some(h) => SetCurrentHandler(s, h, ctx)
        case None => s
      else CompleteArgument(s, e, ctx)
  }

  /** `HandlePrefixSelection`: unlike the keyboard path, the text keeps the
      prefix's own case, the options come from the handler directly and the
      first one is selected. */
  function HandlePrefixSelection(s: State, e: Entry, ctx: Context): (r: State)
    requires s.handler.None?
    ensures match Executor.TryGetHandler(ctx.reg, Lower(e.value))
      case Some(h) =>
        && r.handler == Some(h) && r.commandText == h.Prefix() + " "
        && r.items == h.Options(ctx.env) && r.caretMoves == s.caretMoves + 1
        && r.selectedIndex == (if |h.Options(ctx.env)| > 0 then 0 else -1)
      case None => ExecutedText(s, r, e.value, ctx)
    ensures Consistent(s, ctx.reg) ==> Consistent(r, ctx.reg)
  {
    match Executor.TryGetHandler(ctx.reg, Lower(e.value))
    case Some(h) =>
      var options := h.Options(ctx.env);
      assert (h.Prefix() + " ")[..|h.Prefix() + " "|] == h.Prefix() + " ";
      s.(handler := Some(h), commandText := h.Prefix() + " ", caretMoves := s.caretMoves + 1,
         items := options, selectedIndex := if |options| > 0 then 0 else -1)
    case None =>
      UnknownWordStays(s, e.value, ctx);
      Execute(SetCommandText(s, e.value, ctx), ctx)
  }

  /** `HandleArgumentSelection`: the completed command is checked with a
      full `Split(' ')`. */
  function HandleArgumentSelection(s: State, e: Entry, ctx: Context): (r: State)
    requires s.handler.Some?
    ensures Consistent(s, ctx.reg) ==>
      var h := s.handler.value;
      var complete := h.Prefix() + " " + e.value;
      && (r.cancelRequests == s.cancelRequests + 1
          <==> Accepts(h, e.value, ctx.env) && Executor.Execute(ctx.reg, complete, ctx.env).Succeeded?)
      && (Accepts(h, e.value, ctx.env) ==> ExecutedText(s, r, complete, ctx))
      && (!Accepts(h, e.value, ctx.env) ==>
            && r.commandText == complete && r.handler == s.handler && r.caretMoves > s.caretMoves
            && r.cancelRequests == s.cancelRequests)
    ensures Consistent(s, ctx.reg) ==> Consistent(r, ctx.reg)
  {
    SelectionCheckMatchesAccepts(s.handler.value, e.value, ctx);
    var complete := s.handler.value.Prefix() + " " + e.value;
    CompletedTextKeepsHandler(s.handler.value, e.value);
    var t := SetCommandText(s, complete, ctx);
    if CheckIfExecutable(s.handler, SplitAll(complete), ctx) then Execute(t, ctx)
    else t.(caretMoves := t.caretMoves + 1)
  }

  /** `ItemClick`. */
  function ItemClick(s: State, entry: Option<Entry>, ctx: Context): (r: State)
    ensures entry.None? ==> r == s
    ensures Consistent(s, ctx.reg) ==> Consistent(r, ctx.reg)
  {
    match entry
    case None => s
    case Some(e) =>
      if s.handler.None? then HandlePrefixSelection(s, e, ctx)
      else HandleArgumentSelection(s, e, ctx)
  }

  /** `Reset`, run whenever the window is shown or hidden. */
  function Reset(s: State, ctx: Context): (r: State)
    ensures r.commandText == "" && r.handler.None? && r.items == Executor.ListEntries(ctx.reg)
    ensures r.errorMessage.None? && !r.executeReady && r.cancelRequests == s.cancelRequests
    ensures ActivePhase(r) == "action"
    ensures Tracked(s, ctx.reg) ==> Consistent(r, ctx.reg)
  {
    var t := SetCommandText(s, "", ctx);
    t.(errorMessage := None, executeReady := false, handler := None,
       items := Executor.ListEntries(ctx.reg))
  }

  /** A text built as the prefix, a space and anything keeps the handler. */
  lemma CompletedTextKeepsHandler(h: Handler, value: string)
    ensures StartsWithIgnoreCase(h.Prefix() + " " + value, h.Prefix() + " ")
  {
    assert (h.Prefix() + " " + value)[..|h.Prefix() + " "|] == h.Prefix() + " ";
  }

  /** Splitting a completed command on every space and joining the pieces
      after the first gives back the selected value, so the check on a
      clicked argument is the handler's own acceptance of that value. */
  lemma SelectionCheckMatchesAccepts(h: Handler, value: string, ctx: Context)
    ensures h in ctx.reg ==>
      CheckIfExecutable(Some(h), SplitAll(h.Prefix() + " " + value), ctx) == Accepts(h, value, ctx.env)
  {
    if h !in ctx.reg { return; }
    PrefixHasNoSpace(ctx.reg, h);
    ArgumentAfterWord(h.Prefix(), value);
  }

  /** A prefix is a word: it holds no space. */
  lemma PrefixHasNoSpace(reg: Executor.Registry, h: Handler)
    requires h in reg
    ensures |h.Prefix()| > 0 && ' ' !in h.Prefix()
  {
    var i :| 0 <= i < |reg| && reg[i] == h;
    assert Executor.WellFormedPrefix(h.Prefix());
    assert forall k | 0 <= k < |h.Prefix()| :: !IsWhiteSpace(h.Prefix()[k]);
  }

  /** A text that starts with a prefix and a space, ignoring case, is that
      prefix (in some case), the space, and the argument. */
  lemma SplitAfterPrefix(text: string, p: string)
    requires ' ' !in p && StartsWithIgnoreCase(text, p + " ")
    ensures SplitFirst(text) == [text[..|p|], text[|p| + 1..]]
  {
    var head := text[..|p| + 1];
    assert Lower(head) == Lower(p + " ");
    assert LowerChar(head[|p|]) == (p + " ")[|p|];
    forall k | 0 <= k < |p|
      ensures text[k] != ' '
    {
      assert LowerChar(head[k]) == LowerChar(p[k]);
    }
    assert text == text[..|p|] + " " + text[|p| + 1..];
    SplitFirstAfterWord(text[..|p|], text[|p| + 1..]);
  }

  /** Typing while a handler is chosen and its prefix still begins the text:
      the handler and the text stay, the ready flag says whether the handler
      accepts the argument after the prefix, and the list becomes empty for
      an entryless handler and otherwise holds exactly the handler's options
      that fuzzy-match the argument, in their order. */
  lemma ArgumentPhaseTextChange(s: State, ctx: Context)
    requires s.handler.Some? && s.handler.value in ctx.reg
    requires StartsWithIgnoreCase(s.commandText, s.handler.value.Prefix() + " ")
    ensures var h := s.handler.value;
      var r := TextChanged(s, ctx);
      var argument := s.commandText[|h.Prefix()| + 1..];
      && r.handler == s.handler && r.commandText == s.commandText
      && r.executeReady == Accepts(h, argument, ctx.env)
      && (h.IsEntryless() ==> r.items == [] && r.selectedIndex == s.selectedIndex)
      && (!h.IsEntryless() ==> r.items == Fuzzy.FilterMatches(h.Options(ctx.env), argument))
      && r.caretMoves == s.caretMoves
  {
    var h := s.handler.value;
    PrefixHasNoSpace(ctx.reg, h);
    SplitAfterPrefix(s.commandText, h.Prefix());
    var parts := SplitFirst(s.commandText);
    assert JoinWithSpace(parts[1..]) == parts[1];
    assert Executor.GetOptions(ctx.reg, h.Prefix(), ctx.env) == h.Options(ctx.env);
  }

  /** Typing in the prefix phase (no handler, or the text no longer starts
      with its prefix and a space): a text without a space that names a
      registered prefix, ignoring case, chooses that handler, replaces the
      text by the lower-cased prefix and a space and lists the handler's
      options; any other text stays as typed, leaves no handler and lists
      the registered prefixes that fuzzy-match its first word. The command
      is never ready. */
  lemma PrefixPhaseTextChange(s: State, ctx: Context)
    requires KeptHandler(s.handler, s.commandText).None?
    ensures var r := TextChanged(s, ctx);
      var found := Executor.TryGetHandler(ctx.reg, s.commandText);
      && !r.executeReady
      && (' ' !in s.commandText && found.Some? ==>
            && r.handler == found && r.commandText == Lower(found.value.Prefix()) + " "
            && r.items == found.value.Options(ctx.env) && r.caretMoves == s.caretMoves + 1)
      && (' ' in s.commandText || found.None? ==>
            && r.handler.None? && r.commandText == s.commandText
            && r.items == Fuzzy.FilterMatches(Executor.ListEntries(ctx.reg), SplitFirst(s.commandText)[0])
            && r.caretMoves == s.caretMoves)
  {
    var found := Executor.TryGetHandler(ctx.reg, s.commandText);
    if ' ' !in s.commandText && found.Some? {
      var h := found.value;
      assert Executor.GetOptions(ctx.reg, h.Prefix(), ctx.env) == h.Options(ctx.env);
    }
  }

  /** In the prefix phase, assigning a text that names no registered prefix
      (in any case) leaves that text in place. */
  lemma UnknownWordStays(s: State, text: string, ctx: Context)
    requires s.handler.None?
    ensures Executor.TryGetHandler(ctx.reg, Lower(text)).None? ==>
              var r := SetCommandText(s, text, ctx);
              r.commandText == text && r.handler.None?
  {
    Executor.TryGetHandlerIgnoresCase(ctx.reg, text);
    if text != s.commandText {
      PrefixPhaseTextChange(s.(commandText := text), ctx);
    }
  }

  /** Enter on a selected entry when nothing is ready: in the prefix phase a
      registered prefix is chosen as typing it would (lower-cased text, the
      selection moved down), and in the argument phase the prefix, a space
      and the entry's value are executed. */
  lemma EnterOnSelection(s: State, ctx: Context)
    requires Consistent(s, ctx.reg) && !s.executeReady
    requires !(s.handler.Some? && s.handler.value.IsEntryless())
    requires SelectedItem(s).Some?
    ensures var e := SelectedItem(s).value;
      var r := Enter(s, ctx);
      && (s.handler.None? && Executor.TryGetHandler(ctx.reg, Lower(e.value)).Some? ==>
            var h := Executor.TryGetHandler(ctx.reg, Lower(e.value)).value;
            && r.handler == Some(h) && r.commandText == Lower(h.Prefix()) + " "
            && r.items == h.Options(ctx.env) && r.cancelRequests == s.cancelRequests)
      && (s.handler.None? && Executor.TryGetHandler(ctx.reg, Lower(e.value)).None? ==>
            ExecutedText(s, r, e.value, ctx))
      && (s.handler.Some? ==> ExecutedText(s, r, s.handler.value.Prefix() + " " + e.value, ctx))
  {
    var e := SelectedItem(s).value;
    if s.handler.None? {
      var found := Executor.TryGetHandler(ctx.reg, Lower(e.value));
      if found.Some? {
        assert Executor.GetOptions(ctx.reg, found.value.Prefix(), ctx.env) == found.value.Options(ctx.env);
      }
    } else {
      CompletedTextKeepsHandler(s.handler.value, e.value);
    }
  }
}

=== FILE: web.dfy ===
/** `WebHandler`: a fixed map from site names to URLs. */
module Web {
  import opened Base

  const Prefix := "web"

  /** `_map`, in insertion order; keys compare exactly (the default comparer). */
  const Sites: seq<(string, string)> := [
    ("chatgpt", "https://chatgpt.com"),
    ("youtube", "https://youtube.com")
  ]

  /** The URL of a site name, compared case-sensitively. */
  function SiteUrl(key: string): (r: Option<string>)
    ensures r.Some? <==> exists i | 0 <= i < |Sites| :: Sites[i].0 == key
    ensures forall i | 0 <= i < |Sites| && Sites[i].0 == key :: r == Some(Sites[i].1)
  {
    if key == Sites[0].0 then Some(Sites[0].1)
    else if key == Sites[1].0 then Some(Sites[1].1)
    else None
  }

  /** `GetOptions`: the site names, offered without descriptions. */
  function Options(): (r: seq<Entry>)
    ensures |r| == |Sites|
    ensures forall i | 0 <= i < |r| :: r[i] == Entry(Sites[i].0, None)
  {
    PlainEntries([Sites[0].0, Sites[1].0])
  }

  /** `Execute(key)`: an unknown site fails before anything is started; a
      known one opens exactly its URL through the shell, and an exception from
      that becomes a failure with its message. */
  function Execute(key: string, start: StartInfo -> StartResult): (r: Outcome)
    ensures SiteUrl(key).None? ==> r == Failed("Unknown site: " + key)
    ensures SiteUrl(key).Some? ==>
              var launched := start(StartInfo(SiteUrl(key).value, "", true));
              r == if launched.Started? then Succeeded else Failed(launched.message)
  {
    match SiteUrl(key)
    case None => Failed("Unknown site: " + key)
    case Some(url) =>
      match start(StartInfo(url, "", true))
      case Started => Succeeded
      case Threw(m) => Failed(m)
  }

  /** Site names are case-sensitive: "YouTube" is not a site. */
  lemma SiteNamesAreCaseSensitive(start: StartInfo -> StartResult)
    ensures Execute("YouTube", start) == Failed("Unknown site: YouTube")
  {
    assert "YouTube" != "youtube";
    assert "YouTube" != "chatgpt";
  }
}
